=== FILE: README.md ===
# igit core in Dafny

igit keeps a JSON "stash" document that maps machine names to the files
each machine should back up. Each file maps to a destination directory
inside a git checkout. The model covers four parts of that program:

- **Stash editor.** The `stash create|add|list|clear|remove` commands of
  `commands/stash.py`. Each is a pure function from the stored document to:
  - the document afterwards;
  - the messages logged;
  - how the command ended (completed, `exit(1)`, or end of input while
    asking).

  `add` takes two oracles for the filesystem facts it consults:
  - `os.path.abspath`, as a function from strings to paths;
  - `os.stat` / `isdir`, as a function from paths to a probe.

  The operator's answers to `ask` come in as a sequence, consumed in order.
- **Utilities** (`utils/__init__.py`):
  - the level table and the gating of `debug`/`info`/`warning`/`error`;
  - the `ask` predicate;
  - the cron-string validator;
  - `load_stash` / `save_stash`, over an abstract store of type
    `Option<Manifest>`.
- **Reconcile step** (`copymachine.py`). For one machine, the script creates
  the staging root, then folds over the machine's entries. It acts on an
  abstract filesystem (`map<Path, Node>`) with its own `makedirs`, `rmtree`,
  `copytree` and `copy2`.
  - A directory replaces its target.
  - A file overwrites its target.
  - Anything else only produces a warning.
  - An oracle says at which step an entry raises. The `try` isolates that
    entry's failure from the others.
- **Crontab rewrite** (`commands/cron.py`). The three managed lines are built
  from the cron strings and the lowered machine name. On an existing
  crontab:
  - the managed and blank lines are dropped;
  - the others are kept in order;
  - the three new lines are appended.

  The rewrite is modelled twice:
  - as the script's own index-collecting and reverse-popping loops
    (`RewriteLines`);
  - as a plain filter (`KeepLines`).

  The first is proved equal to the second.

Modules:
- `Base`: `Option`, path and manifest types.
- `Text`: ASCII `lower`, `in`, `split("\n")`, `split()`.
- `Utils`.
- `Stash`.
- `Fs`: the filesystem model.
- `CopyMachine`.
- `Cron`.

Paths are sequences of segments. `Lower` maps only the ASCII letters `A`–`Z`.

Two behaviours of the source are modelled as written:
- `stash create` stores the machine name verbatim. Every other command looks
  it up lowered, so a machine created with capitals is never found again
  (`Stash.CreateKeepsCase`).
- The error message for an unparsable `gitcron` prints `copycron`
  (`commands/cron.py:51`). `Cron.CronstringErrors` records exactly that.

## Model

| member | source | states |
|---|---|---|
| Utils.GetLoggingLevel | utils/__init__.py:27-29 | A level name maps to a severity exactly when it is one of DEBUG, INFO, WARNING, ERROR; the severities are 10, 20, 30, 40 |
| Utils.SeverityOrder | utils/__init__.py:27-29 | DEBUG < INFO < WARNING < ERROR, with the four table values |
| Utils.Emits | utils/__init__.py:32-53 | The gate of the four helpers, per threshold: DEBUG shows every level, INFO all but DEBUG, WARNING only warnings and errors, ERROR only errors |
| Utils.EmitsMonotone | utils/__init__.py:32-53 | A message shown at one level is shown at every higher level, and an error is shown under every threshold |
| Utils.ShownGrowsAsThresholdFalls | utils/__init__.py:32-53 | A lower threshold never shows fewer messages: what a higher threshold shows is what it keeps of the records the lower one passes, so a subsequence of what the lower one shows; DEBUG shows every message of a log, in order |
| Utils.Ask | utils/__init__.py:78-89 | An accepted answer is one to four characters long and holds no space: the typed line is compared without stripping |
| Utils.AskIgnoresCase | utils/__init__.py:78-89 | An answer is accepted iff its lowercase form is |
| Utils.AskExamples | utils/__init__.py:78-89 | y, YES, Yeah, yep, True, t and 1 are accepted; the empty answer, no, n, " y", "yes " and 0 are not (no stripping) |
| Utils.VerifyCronstring | utils/__init__.py:116-124 | Returns true iff every whitespace-separated field is `*`, one or two digits, or `*/` then one or two digits; the hours and minutes arguments have no effect |
| Utils.SpacedValid | utils/__init__.py:116-124 | A cron string of single-spaced fields, each `*`, one or two digits or `*/` then one or two digits, is accepted |
| Utils.SpacedInvalid | utils/__init__.py:116-124 | A cron string of single-spaced non-empty fields with any one bad field is rejected, wherever that field stands |
| Utils.CronstringAcceptsStep | utils/__init__.py:116-124 | `*/5 * * * *` is accepted |
| Utils.CronstringRejectsLetter | utils/__init__.py:116-124 | `99x * * * *` is rejected |
| Utils.CronstringRejectsLongStep | utils/__init__.py:116-124 | `*/100 * * * *` is rejected: at most two digits after the slash |
| Utils.CronstringIgnoresShape | utils/__init__.py:116-124 | Neither field count nor range is checked: the empty string, a lone space and `99 99` are all accepted |
| Utils.LoadStash | utils/__init__.py:66-70 | A missing store is initialised to the empty document, which is returned; an existing store is returned unchanged |
| Utils.SaveStash | utils/__init__.py:73-75 | Loading the saved store returns exactly the saved document and leaves the store as written |
| Utils.LoadAfterSave | utils/__init__.py:66-75 | Loading after saving a document returns that document; loading twice is loading once |
| Stash.Create | commands/stash.py:26-32 | The document gains the name verbatim with an empty entry set if it was absent; every existing machine keeps its entries; the command always completes |
| Stash.CreateIdempotent | commands/stash.py:27-32 | Creating the same machine twice leaves the document as creating it once |
| Stash.CreateKeepsCase | commands/stash.py:28-61 | A name with capitals is stored as given, and a later `add` for it exits with status 1 because `add` looks up the lowered name |
| Stash.Decide | commands/stash.py:64-85 | A path is added iff it is new and either needs no consent (a file of at most 1 MiB) or is forced, or the next answer is a yes; `--files-only` refuses directories before `--force` is consulted; an answer is consumed iff one was asked; running out of answers is reported |
| Stash.FilesOnlyIgnoredForFiles | commands/stash.py:68-77 | For a file, `--files-only` makes no difference to the decision |
| Stash.OneMiBIsSmall | commands/stash.py:67-77 | A file of exactly 2^20 bytes is added without asking; one byte more needs an answer |
| Stash.AddPaths | commands/stash.py:62-86 | Entries already present keep their destination; every new entry is one of the given paths and maps to `--dest` |
| Stash.AddedWithoutQuestion | commands/stash.py:62-86 | A given path that is no directory under `--files-only` and needs no consent, or is forced, is in the entries afterwards unless the input ended |
| Stash.ForceNeverAsks | commands/stash.py:62-86 | With `--force` the loop never asks, so it never stops on end of input and consumes no answer |
| Stash.AddPathsCompose | commands/stash.py:62-86 | Adding a list of paths is adding its front and then its back, starting from the entries and answers the front left; an end of input in the front stops everything |
| Stash.Add | commands/stash.py:58-89 | An unknown lowered machine exits 1 without saving; for a known machine the command completes and saves exactly when the per-path loop did not run out of answers, and otherwise ends on end of input having saved nothing; on completion only the lowered machine's entries change, to the result of the per-path loop |
| Stash.AddPresentUnchanged | commands/stash.py:64-65 | A path already in the stash is left as it is, and no answer is consumed |
| Stash.FilesOnlyNeverAddsDirectories | commands/stash.py:68-71 | With `--files-only`, no directory that was not already present ever enters the entries |
| Stash.AddOneIff | commands/stash.py:58-89 | Adding one path to a known machine always completes or ends on end of input; it ends on end of input iff consent was needed and no answer was left; on completion the path is present iff it was already there or the decision adds it |
| Stash.RemovePaths | commands/stash.py:156-162 | The entries afterwards are the entries minus the given paths, with one message per path |
| Stash.Remove | commands/stash.py:151-165 | An unknown lowered machine exits 1 without saving; otherwise the given paths are removed from that machine's entries (a path that is not there changes nothing) and the document is saved |
| Stash.AddThenRemoveRestores | commands/stash.py:58-165 | Adding a new path and then removing it gives back the original document |
| Stash.List | commands/stash.py:102-110 | Never saves; "all" in any case lists the whole document; a known machine lists its entries; anything else exits 1 |
| Stash.Clear | commands/stash.py:123-132 | "all" saves the empty document; a known machine keeps its key with no entries and nothing else changes; anything else exits 1 without saving |
| Fs.MakeDirs | copymachine.py:30 | `makedirs(exist_ok=True)` succeeds iff no prefix of the path is a file; then every prefix is a directory, existing nodes keep their contents and nothing outside the prefixes changes |
| Fs.RmTree | copymachine.py:40-41 | Removing a tree succeeds iff the target is a directory (a missing target or a file raises); it then removes exactly the nodes at or below the target and touches nothing else |
| Fs.Mirror | copymachine.py:42 | The copied subtree holds a node at `dst + r` iff the source has one at `src + r`, with the same content |
| Fs.CopyTree | copymachine.py:42 | `copytree` succeeds iff the source is a directory, the destination does not exist and none of the destination's ancestors is a file (a missing source raises); then the ancestors are directories, every path outside the destination's ancestors and subtree is untouched, and (in a rooted filesystem, from a source directory) the destination holds a node at `dst + x` iff the source has one at `src + x`, with the same content |
| Fs.Copy2 | copymachine.py:48 | `copy2` writes into a directory destination under the source's name, otherwise at the destination; it succeeds iff the source is a file, the real destination differs from it, is not a directory and has a directory as parent; the result overwrites that one node |
| CopyMachine.TargetInDestination | copymachine.py:34-46 | The copy target of a named source is the source's basename directly inside the directory created for the entry, `base/machine/dest`; an empty `dest` puts it directly in the staging root |
| CopyMachine.Reconcile | copymachine.py:25-55 | The document is only read (or initialised when missing); an unknown lowered machine stops the run before anything is created; a failure creating the staging root stops it; otherwise there is one report per entry, in iteration order |
| CopyMachine.ReconcileEntries | copymachine.py:32-55 | One report per entry, each about that entry's source, whatever fails |
| CopyMachine.EntriesCompose | copymachine.py:32-55 | Processing entries is processing any split of them in turn, so a failing entry does not stop the later ones |
| CopyMachine.EmptyMachineOnlyCreatesRoot | copymachine.py:30-32 | A machine with no entries only gets its staging root |
| CopyMachine.FailedMakeDirsChangesNothing | copymachine.py:33-55 | An entry whose destination directory cannot be created changes nothing and reports the failure |
| CopyMachine.EntryConfined | copymachine.py:34-48 | One entry changes nothing outside the machine's staging root except the root's own ancestors, keeps the root a directory, and leaves its destination directory in place |
| CopyMachine.EntriesConfined | copymachine.py:32-48 | The whole loop keeps to the staging root in the same sense |
| CopyMachine.ReconcileConfined | copymachine.py:30-48 | After a run, the staging root is a directory and every path outside it and its ancestors is untouched |
| CopyMachine.EntryMirrorsDirectory | copymachine.py:35-42 | A directory entry, with no fault, makes the target an exact mirror of the source tree, replacing whatever directory was there |
| CopyMachine.EntryOverwritesFile | copymachine.py:43-48 | A file entry whose target is not a directory, with no fault, creates the destination directory and overwrites the target with the source's content |
| CopyMachine.EntryFileIntoDirectory | copymachine.py:43-48 | When the target is already a directory, `copy2` writes the file inside it under the source's name |
| CopyMachine.EntryNeitherOnlyWarns | copymachine.py:49-50 | A source that is neither file nor directory only produces a warning after its destination directory is created |
| CopyMachine.MakeDirsOneLevel | copymachine.py:34 | Creating one more level below an existing directory chain adds exactly that directory |
| CopyMachine.ReconcileEntry | copymachine.py:33-55 | One report about the entry's source; the source is examined only when its destination directory was made without raising; a warned entry leaves exactly that directory behind |
| CopyMachine.Classify | copymachine.py:35-50 | The warning is given iff the source is neither a directory nor a file, and changes nothing; a directory report needs a directory source and a file report a file source |
| CopyMachine.CopyDirectory | copymachine.py:35-42 | The report is a failure or "copied directory" for the target; it is "copied" only when neither the removal of an existing target nor the copy raised; a failure with no existing target changes nothing |
| CopyMachine.CopyFile | copymachine.py:43-48 | The report is a failure or "copied file" for the target; on success the source is a file and the new filesystem is the old one with the real destination set to the source's content; a failure changes nothing |
| Cron.JoinPath | commands/cron.py:54-59 | `os.path.join` of the base directory and a relative file name is the directory, then at most one `/`, then the name |
| Cron.Managed | commands/cron.py:88-95 | A managed line is blank or at least as long as `gitactions.py`, the shortest text it looks for |
| Cron.ManagedInside | commands/cron.py:88-95 | The test is a substring test: a non-blank managed line stays managed whatever text surrounds it |
| Cron.NoteLineManaged | commands/cron.py:57 | The note line is managed: it carries the marker the rewrite drops |
| Cron.CopyJobLine | commands/cron.py:58 | The copymachine job starts with its cron string and names `copymachine.py`, so it is managed |
| Cron.CopyJobMachine | commands/cron.py:58 | The copymachine job passes the lowered machine name after `--machine` |
| Cron.GitJobLine | commands/cron.py:59 | The gitactions job starts with its cron string and names `gitactions.py`, so it is managed |
| Cron.NewLines | commands/cron.py:56-60 | Three lines: the note, then the job starting with `copycron`, then the job starting with `gitcron`; every one is managed |
| Cron.NewLinesSingle | commands/cron.py:56-60 | With no newline in the arguments or the base directory, no new line contains a newline |
| Cron.KeepLines | commands/cron.py:86-101 | For any drop predicate (the rewrite uses managed-or-blank): no kept line is dropped, there are no more kept lines than input lines, and every input line that is not dropped is among them |
| Cron.KeptAreInputs | commands/cron.py:86-101 | Every kept line is one of the input lines |
| Cron.KeepLinesAppend | commands/cron.py:86-101 | The filter distributes over concatenation, so the kept lines stay in order |
| Cron.KeepLinesAllKept | commands/cron.py:86-96 | Lines none of which is dropped are kept as they are |
| Cron.KeepLinesAllDropped | commands/cron.py:86-96 | Lines all of which are dropped leave nothing |
| Cron.KeepLinesIdempotent | commands/cron.py:86-101 | Filtering twice is filtering once |
| Cron.DropIndexes | commands/cron.py:86-96 | The collected indexes are ascending, all point to dropped lines, and include every dropped line; their number is the number of input lines the filter does not keep |
| Cron.PopIndexes | commands/cron.py:98-101 | Popping the collected indexes from the back leaves exactly the order-preserving filter of the lines; one line is popped per index and every popped line is dropped |
| Cron.RewriteLines | commands/cron.py:86-103 | The script's collect-and-pop loops followed by the append give the filter of the lines followed by the new lines; the popped lines are all dropped and, with the kept ones, account for every input line |
| Cron.RewrittenText | commands/cron.py:84-108 | When no new line holds a newline, splitting the written text on "\n" gives the kept lines, then the new lines, then one empty piece |
| Cron.RewriteIdempotent | commands/cron.py:84-108 | For a drop predicate that drops the blank line and every new line, rewriting the written crontab with the same single-line additions writes the same text again |
| Cron.RewriteCrontab | commands/cron.py:77-109 | An existing crontab is backed up verbatim iff `--save`; the new crontab is its split lines minus the managed and blank ones, then the new lines, each followed by a newline; no error is logged |
| Cron.EditIdempotent | commands/cron.py:56-108 | When the machine name, the two cron strings and the base directory hold no newline, running the edit twice with the same arguments writes the same crontab as running it once: managed lines never pile up |
| Cron.NewlineCronValid | utils/__init__.py:116-124 | `verify_cronstring` accepts "*\n*": `split()` gives the two fields "*" and "*" |
| Cron.NewlineCronKeepsFragment | commands/cron.py:56-108 | With the copymachine cron string "*\n*", the crontab one edit writes is read back by the next with one more kept line, the unmanaged fragment "*" |
| Cron.NewlineCronPilesUp | commands/cron.py:56-108 | With the accepted cron string "*\n*", running the edit again on the crontab it wrote writes a different crontab |
| Cron.CheckCronstrings | commands/cron.py:44-51 | The edit is announced first; exactly one error per invalid cron string is shown, and the edit carries on |
| Cron.CronEdit | commands/cron.py:44-109 | When reading the crontab reported no error: the only errors shown are the cron-string ones; an empty crontab writes nothing; otherwise the old text is backed up iff `--save`, and the new crontab is the kept lines then the three new lines, each followed by a newline |
| Text.SplitLines | commands/cron.py:84 | `split("\n")` gives at least one piece, no piece holds a newline, and joining the pieces with "\n" gives the text back |
| Text.JoinTerminatedAppend | commands/cron.py:103-108 | Writing two runs of newline-terminated lines writes the first run and then the second |
| Text.Fields | utils/__init__.py:119 | `split()` gives only non-empty fields, none holding whitespace, and the fields glued together are the text with its whitespace removed; the text is the fields interleaved with whitespace-only separators, every separator between two fields non-empty, so the fields are the maximal runs |
| Text.FieldsUnique | utils/__init__.py:119 | Any fields that cut the text that way (whitespace-only separators, non-empty between fields, non-empty space-free fields) are exactly what `split()` gives |
| Text.SplitJoinTerminated | commands/cron.py:84-108 | Splitting newline-terminated single lines on "\n" gives the lines back plus one empty trailing piece |

## Left out

- The error branch of `cron_edit` (`commands/cron.py:62-75`) is not modelled. It cannot run as written: line 70 reads `line` before anything assigns it, so it raises before writing. It would also call `debug` with one argument (line 75) and write the template and new lines without newlines (lines 73-74). `Cron.CronEdit` covers only the case where reading the crontab reported no error.
- Crontab I/O is not modelled: `get_crontab`, `activate_crontab`, `get_crontab_template`, the dated file name, the UTF-8 decoding of the `crontab -l` output, and activating the written file (`commands/cron.py:111-119`). The files the edit would write are returned as values instead.
- `gitactions.py` is not part of this model. It only runs git subprocesses.
- JSON encoding and decoding behind `load_stash`/`save_stash` are not modelled. In particular, a stash file that exists but holds invalid JSON would raise; the store is an abstract `Option<Manifest>`.
- `os.path.abspath`, `os.stat`, `isdir` and `isfile` are oracles. In the reconcile step, the filesystem map answers `isdir` and `isfile`. Symbolic links, permissions and file metadata are not modelled. `copy2` copies content only.
- Stash.Decide: compares the integer size against 2^20 bytes, where the source compares the floating-point quotient `size / 2**20` against `1.0`. The two agree for every size a file can have.
- Text.Lower: maps only ASCII letters, where Python's `str.lower` also lowers non-ASCII letters.
- `Text.Fields` models `str.split()` for ASCII whitespace and the C0 separators only. It does not cover the Unicode spaces Python also splits on.
- Utils.GetLoggingLevel: returns `None` for an unknown name, where the source raises `KeyError`. The gated helpers take the threshold as a `Level`, so an unknown configured level is not modelled.
- The timestamps in messages and the message texts are not modelled. Each message is an event value with its level.
- A `--dest` that is an absolute path is not modelled. `os.path.join` would discard the staging root for it; destinations here are relative segment sequences.
- `copytree` into its own subtree and other self-overlapping copies are not modelled. `Fs.Mirror` reads the source as it was before the copy.
- A fault is modelled as raising before its step changes anything. Partially completed `copytree` or `rmtree` calls are not modelled.
- The dictionary's iteration order is an input sequence that lists each key once. Python's insertion order is not tracked.
- The run's printed banner and the traceback text (`copymachine.py:24, 52-55`) are not modelled. A failure is a `CopyFailed` report.
- CopyMachine.ReconcileEntry: states the report and when the source is examined, not the filesystem afterwards. The `Entry*` lemmas state that under their preconditions.
- CopyMachine.CopyDirectory: does not state the copied tree itself. `CopyMachine.EntryMirrorsDirectory` does, for a rooted filesystem with no fault.
- CopyMachine.EntryConfined: treats every `--dest` segment as a plain directory name. A segment `..`, `.` or an empty segment is not resolved, so a `--dest ../x`, which the real filesystem resolves outside the staging root, is not modelled and the confinement does not cover it. A source `/` (the empty path, whose basename is empty) is excluded too.
- CopyMachine.EntriesConfined: the same plain-name reading of `--dest` segments; entries whose `--dest` climbs with `..` are not covered, nor is a source `/` (the empty path, whose basename is empty).
- CopyMachine.ReconcileConfined: the same plain-name reading of `--dest` segments; a stash with a climbing `--dest` can write outside the staging root in the real program. A stash with the source `/` (the empty path, whose basename is empty) is excluded too.
- Cron.EditIdempotent: holds only when the machine name, both cron strings and the base directory hold no newline. `verify_cronstring` (`utils/__init__.py:116-124`) splits on any whitespace, so it accepts a cron string such as "*\n*", and the edit then carries on. The job line it writes is read back as two lines, the fragment "*" is not managed and is kept, and every further edit adds one more: `Cron.NewlineCronPilesUp` shows this.
- Stash.Remove: `click.Path(exists=True)` on the `filenames` argument (`commands/stash.py:138`, and line 38 for `add`) makes click exit with status 2 before the command runs when a named file does not exist on disk, and `nargs=-1, required=True` rejects an empty list. The model starts after argument parsing, so a path is removed whether or not it exists on disk.

=== FILE: base.dfy ===
/** Types shared by every part of the model. */
module Base {

  /** A value that may be absent (a missing stash document, an unknown level name). */
  datatype Option<T> = None | Some(value: T)

  /** An absolute, canonical filesystem path, as the list of its segments
      below the root: "/data/report.txt" is ["data", "report.txt"]. */
  type Path = seq<string>

  /** A destination subpath below a machine's staging directory; [] is the
      staging directory itself. */
  type RelPath = seq<string>

  /** One machine's entries: absolute source path to destination subpath. */
  type EntrySet = map<Path, RelPath>

  /** The whole stash document: machine name to that machine's entries. */
  type Manifest = map<string, EntrySet>
}

=== FILE: copymachine.dfy ===
/** The reconcile step of copymachine.py: for one machine, mirror each
    entry's source into the machine's staging directory. The stash document
    is only read. Failures the real filesystem could raise beyond those the
    filesystem model already produces (permissions, a full disk) come from a
    fault oracle naming the step at which an entry raises. */
module CopyMachine {
  import opened Base
  import opened Text
  import opened Utils
  import opened Fs

  /** Where an entry raises, if anywhere, beyond what the model itself rejects. */
  datatype Fault = NoFault | AtMakeDirs | AtRemove | AtCopy

  /** What the run prints about one entry. */
  datatype EntryReport =
    | CopiedDirectory(source: Path, target: Path)
    | CopiedFile(source: Path, target: Path)
    | NeitherFileNorDir(source: Path)
    | CopyFailed(source: Path, error: OsError)

  datatype Applied = Applied(fs: FileSystem, reports: seq<EntryReport>)

  /** `os.path.join(base, machine.lower())`. */
  function StagingRoot(base: Path, key: string): Path
  {
    base + [key]
  }

  /** `os.path.join(base, machine.lower(), dest, os.path.basename(src))`. */
  function Target(base: Path, key: string, dest: RelPath, src: Path): Path
  {
    JoinName(StagingRoot(base, key) + dest, Basename(src))
  }

  /** The target of a named source lies directly inside the directory
      created for the entry, under the source's own name; with an empty
      `dest` that directory is the staging root. */
  lemma TargetInDestination(base: Path, key: string, dest: RelPath, src: Path)
    requires Basename(src) != ""
    ensures var t := Target(base, key, dest, src);
      && |t| > 0
      && t[..|t| - 1] == StagingRoot(base, key) + dest
      && Basename(t) == Basename(src)
      && (|dest| == 0 ==> t[..|t| - 1] == base + [key])
  {
  }

  /** A filesystem step that raises when the oracle says so. */
  function Guard(raise: bool, step: Result): Result
  {
    if raise then Failed(Raised) else step
  }

  /** The body of the `try` for one entry. Whatever raises is caught: the
      filesystem keeps the steps that completed before it. */
  function ReconcileEntry(fs: FileSystem, base: Path, key: string, src: Path, dest: RelPath, fault: Fault)
    : (r: Applied)
    ensures |r.reports| == 1 && r.reports[0].source == src
    ensures !r.reports[0].CopyFailed? ==> fault != AtMakeDirs && MakeDirs(fs, StagingRoot(base, key) + dest).Ok?
    ensures r.reports[0].NeitherFileNorDir? ==> r.fs == MakeDirs(fs, StagingRoot(base, key) + dest).fs
  {
    match Guard(fault == AtMakeDirs, MakeDirs(fs, StagingRoot(base, key) + dest))
    case Failed(e) => Applied(fs, [CopyFailed(src, e)])
    case Ok(fs1) => Classify(fs1, src, Target(base, key, dest, src), fault)
  }

  /** The source is examined only after its destination directory exists. */
  function Classify(fs1: FileSystem, src: Path, target: Path, fault: Fault): (r: Applied)
    ensures |r.reports| == 1 && r.reports[0].source == src
    ensures r.reports[0].NeitherFileNorDir? <==> !IsDir(fs1, src) && !IsFile(fs1, src)
    ensures r.reports[0].NeitherFileNorDir? ==> r.fs == fs1
    ensures r.reports[0].CopiedDirectory? ==> IsDir(fs1, src)
    ensures r.reports[0].CopiedFile? ==> IsFile(fs1, src)
  {
    if IsDir(fs1, src) then CopyDirectory(fs1, src, target, fault)
    else if IsFile(fs1, src) then CopyFile(fs1, src, target, fault)
    else Applied(fs1, [NeitherFileNorDir(src)])
  }

  /** A directory replaces its target: any existing target is removed, then
      the tree is copied afresh. */
  function CopyDirectory(fs1: FileSystem, src: Path, target: Path, fault: Fault): (r: Applied)
    ensures |r.reports| == 1 && r.reports[0].source == src
    ensures r.reports[0].CopyFailed? || r.reports[0] == CopiedDirectory(src, target)
    ensures r.reports[0].CopiedDirectory? ==> fault != AtCopy && (target in fs1 ==> fault != AtRemove)
    ensures r.reports[0].CopyFailed? && target !in fs1 ==> r.fs == fs1
  {
    var cleared := if target in fs1 then Guard(fault == AtRemove, RmTree(fs1, target)) else Ok(fs1);
    match cleared
    case Failed(e) => Applied(fs1, [CopyFailed(src, e)])
    case Ok(fs2) =>
      match Guard(fault == AtCopy, CopyTree(fs2, src, target))
      case Failed(e) => Applied(fs2, [CopyFailed(src, e)])
      case Ok(fs3) => Applied(fs3, [CopiedDirectory(src, target)])
  }

  /** A file overwrites its target. */
  function CopyFile(fs1: FileSystem, src: Path, target: Path, fault: Fault): (r: Applied)
    ensures |r.reports| == 1 && r.reports[0].source == src
    ensures r.reports[0].CopyFailed? || r.reports[0] == CopiedFile(src, target)
    ensures r.reports[0].CopiedFile? ==> fault != AtCopy && IsFile(r.fs, CopyDestination(fs1, src, target))
    ensures r.reports[0].CopiedFile? ==> IsFile(fs1, src) && r.fs == fs1[CopyDestination(fs1, src, target) := fs1[src]]
    ensures r.reports[0].CopyFailed? ==> r.fs == fs1
  {
    match Guard(fault == AtCopy, Copy2(fs1, src, target))
    case Failed(e) => Applied(fs1, [CopyFailed(src, e)])
    case Ok(fs3) => Applied(fs3, [CopiedFile(src, target)])
  }

  /** One entry of the loop: the step the fold applies. */
  type Step = (FileSystem, (Path, RelPath)) -> Applied

  /** Apply `step` to each entry in turn, threading the filesystem and
      collecting the reports. */
  function Fold(fs: FileSystem, entries: seq<(Path, RelPath)>, step: Step): Applied
    decreases |entries|
  {
    if |entries| == 0 then Applied(fs, [])
    else
      var head := step(fs, entries[0]);
      var tail := Fold(head.fs, entries[1..], step);
      Applied(tail.fs, head.reports + tail.reports)
  }

  lemma {:induction false} FoldCompose(fs: FileSystem, first: seq<(Path, RelPath)>, second: seq<(Path, RelPath)>,
                                       step: Step)
    ensures var a := Fold(fs, first, step);
      var b := Fold(a.fs, second, step);
      Fold(fs, first + second, step) == Applied(b.fs, a.reports + b.reports)
    decreases |first|
  {
    if |first| == 0 {
      assert first + second == second;
    } else {
      var head := step(fs, first[0]);
      assert (first + second)[0] == first[0];
      assert (first + second)[1..] == first[1..] + second;
      FoldCompose(head.fs, first[1..], second, step);
      var a := Fold(fs, first, step);
      var b := Fold(a.fs, second, step);
      assert head.reports + (Fold(head.fs, first[1..], step).reports + b.reports) == a.reports + b.reports;
    }
  }

  lemma {:induction false} FoldReports(fs: FileSystem, entries: seq<(Path, RelPath)>, step: Step)
    requires forall fs0: FileSystem, e: (Path, RelPath) ::
               |step(fs0, e).reports| == 1 && step(fs0, e).reports[0].source == e.0
    ensures var r := Fold(fs, entries, step);
      |r.reports| == |entries| && forall i :: 0 <= i < |entries| ==> r.reports[i].source == entries[i].0
    decreases |entries|
  {
    if |entries| > 0 {
      FoldReports(step(fs, entries[0]).fs, entries[1..], step);
    }
  }

  /** The `for` loop over the machine's entries, as a fold. */
  function ReconcileEntries(fs: FileSystem, base: Path, key: string, entries: seq<(Path, RelPath)>,
                            fault: Path -> Fault): (r: Applied)
    ensures |r.reports| == |entries|
    ensures forall i :: 0 <= i < |entries| ==> r.reports[i].source == entries[i].0
  {
    var step := EntryStep(base, key, fault);
    assert forall fs0: FileSystem, e: (Path, RelPath) ::
             |step(fs0, e).reports| == 1 && step(fs0, e).reports[0].source == e.0 by {
      forall fs0: FileSystem, e: (Path, RelPath)
        ensures |step(fs0, e).reports| == 1 && step(fs0, e).reports[0].source == e.0
      {
        var r := ReconcileEntry(fs0, base, key, e.0, e.1, fault(e.0));
        assert step(fs0, e) == r;
      }
    }
    FoldReports(fs, entries, step);
    Fold(fs, entries, step)
  }

  function EntryStep(base: Path, key: string, fault: Path -> Fault): Step
  {
    (fs: FileSystem, e: (Path, RelPath)) => ReconcileEntry(fs, base, key, e.0, e.1, fault(e.0))
  }

  /** `order` lists the keys of `entries` once each: the dictionary's
      iteration order. */
  predicate Enumerates(order: seq<Path>, entries: EntrySet)
  {
    && (forall i :: 0 <= i < |order| ==> order[i] in entries)
    && (forall p :: p in entries ==> p in order)
    && (forall i, j :: 0 <= i < j < |order| ==> order[i] != order[j])
  }

  function InOrder(entries: EntrySet, order: seq<Path>): (r: seq<(Path, RelPath)>)
    requires forall i :: 0 <= i < |order| ==> order[i] in entries
  {
    seq(|order|, i requires 0 <= i < |order| => (order[i], entries[order[i]]))
  }

  datatype Run =
    | UnknownMachine(store: Store)
    | RootFailed(store: Store, error: OsError)
    | Reconciled(store: Store, fs: FileSystem, reports: seq<EntryReport>)

  /** The whole script for `--machine machine`: load the document, assert
      the lowered name is a key, create the staging root (outside the `try`,
      so a failure there ends the run), then reconcile every entry. */
  function Reconcile(store: Store, fs: FileSystem, base: Path, machine: string, order: seq<Path>,
                     fault: Path -> Fault): (r: Run)
    requires Lower(machine) in LoadStash(store).manifest ==>
               Enumerates(order, LoadStash(store).manifest[Lower(machine)])
    ensures r.store == LoadStash(store).store
    ensures r.UnknownMachine? <==> Lower(machine) !in LoadStash(store).manifest
    ensures r.RootFailed? <==> Lower(machine) in LoadStash(store).manifest
                               && MakeDirs(fs, StagingRoot(base, Lower(machine))).Failed?
    ensures r.Reconciled? ==> |r.reports| == |order|
                              && forall i :: 0 <= i < |order| ==> r.reports[i].source == order[i]
  {
    var loaded := LoadStash(store);
    var key := Lower(machine);
    if key !in loaded.manifest then UnknownMachine(loaded.store)
    else
      match MakeDirs(fs, StagingRoot(base, key))
      case Failed(e) => RootFailed(loaded.store, e)
      case Ok(fs1) =>
        var done := ReconcileEntries(fs1, base, key, InOrder(loaded.manifest[key], order), fault);
        Reconciled(loaded.store, done.fs, done.reports)
  }

  // ---------------------------------------------------------------------
  // Properties
  // ---------------------------------------------------------------------

  /** A machine with no entries gets its staging root and nothing else. */
  lemma EmptyMachineOnlyCreatesRoot(store: Store, fs: FileSystem, base: Path, machine: string, fault: Path -> Fault)
    requires Lower(machine) in LoadStash(store).manifest
    requires LoadStash(store).manifest[Lower(machine)] == map[]
    requires MakeDirs(fs, StagingRoot(base, Lower(machine))).Ok?
    ensures Reconcile(store, fs, base, machine, [], fault)
            == Reconciled(LoadStash(store).store, MakeDirs(fs, StagingRoot(base, Lower(machine))).fs, [])
  {
    assert InOrder(map[], []) == [];
  }

  /** Processing a list of entries is processing its two halves in turn: an
      entry that fails does not stop the ones after it. */
  lemma EntriesCompose(fs: FileSystem, base: Path, key: string,
                       first: seq<(Path, RelPath)>, second: seq<(Path, RelPath)>, fault: Path -> Fault)
    ensures var a := ReconcileEntries(fs, base, key, first, fault);
      var b := ReconcileEntries(a.fs, base, key, second, fault);
      ReconcileEntries(fs, base, key, first + second, fault) == Applied(b.fs, a.reports + b.reports)
  {
    FoldCompose(fs, first, second, EntryStep(base, key, fault));
  }

  /** An entry that raises while creating its directory changes nothing. */
  lemma FailedMakeDirsChangesNothing(fs: FileSystem, base: Path, key: string, src: Path, dest: RelPath)
    ensures ReconcileEntry(fs, base, key, src, dest, AtMakeDirs) == Applied(fs, [CopyFailed(src, Raised)])
  {
  }

  // ---------------------------------------------------------------------
  // Confinement: the run writes nowhere but below the staging root
  // ---------------------------------------------------------------------

  /** Every ancestor of `p`, and `p` itself, is a directory. */
  predicate AllDirs(fs: FileSystem, p: Path)
  {
    forall q :: q in Prefixes(p) ==> IsDir(fs, q)
  }

  /** Nothing outside the tree strictly below `region` differs. */
  ghost predicate Confined(fs: FileSystem, fs': FileSystem, region: Path)
  {
    forall q :: !Below(region, q) ==> Untouched(fs, fs', q)
  }

  lemma ConfinedKeepsDirs(fs: FileSystem, fs': FileSystem, region: Path)
    requires AllDirs(fs, region) && Confined(fs, fs', region)
    ensures AllDirs(fs', region)
  {
    forall q | q in Prefixes(region) ensures IsDir(fs', q) {
      PrefixesAreIsPrefix(region, q);
      assert !Below(region, q);
      assert Untouched(fs, fs', q);
    }
  }

  lemma BelowWiden(outer: Path, inner: Path, q: Path)
    requires IsPrefix(outer, inner) && Below(inner, q)
    ensures Below(outer, q)
  {
    assert q[..|outer|] == q[..|inner|][..|outer|];
  }

  /** A prefix of `region + more` that is not below `region` is a prefix of
      `region`. */
  lemma PrefixOfExtension(region: Path, longer: Path, q: Path)
    requires IsPrefix(region, longer) && IsPrefix(q, longer) && !Below(region, q)
    ensures q in Prefixes(region)
  {
    assert q == region[..|q|];
  }

  lemma CopyDirectoryConfined(fs1: FileSystem, src: Path, target: Path, fault: Fault, region: Path)
    requires Below(region, target) && AllDirs(fs1, region)
    ensures Confined(fs1, CopyDirectory(fs1, src, target, fault).fs, region)
  {
    var cleared := if target in fs1 then Guard(fault == AtRemove, RmTree(fs1, target)) else Ok(fs1);
    if cleared.Ok? {
      var fs2 := cleared.fs;
      forall q | IsPrefix(target, q) ensures Below(region, q) {
        assert q[..|region|] == q[..|target|][..|region|];
      }
      assert Confined(fs1, fs2, region);
      ConfinedKeepsDirs(fs1, fs2, region);
      var copied := Guard(fault == AtCopy, CopyTree(fs2, src, target));
      if copied.Ok? {
        var made := MakeDirs(fs2, target).fs;
        forall q | !Below(region, q) ensures Untouched(fs2, copied.fs, q) {
          if q in Prefixes(target) {
            PrefixesAreIsPrefix(target, q);
            PrefixOfExtension(region, target, q);
          }
          assert Untouched(fs2, made, q);
          assert q !in Mirror(fs2, src, target);
        }
      }
    }
  }

  lemma CopyFileConfined(fs1: FileSystem, src: Path, target: Path, fault: Fault, region: Path)
    requires Below(region, target)
    ensures Confined(fs1, CopyFile(fs1, src, target, fault).fs, region)
  {
    var actual := CopyDestination(fs1, src, target);
    assert Below(region, actual) by {
      if actual != target {
        assert actual == target + [Basename(src)] || actual == target;
        assert actual[..|target|] == target;
        BelowWiden(region, target, actual);
      }
    }
  }

  lemma ClassifyConfined(fs1: FileSystem, src: Path, target: Path, fault: Fault, region: Path)
    requires Below(region, target) && AllDirs(fs1, region)
    ensures Confined(fs1, Classify(fs1, src, target, fault).fs, region)
  {
    if IsDir(fs1, src) {
      CopyDirectoryConfined(fs1, src, target, fault, region);
    } else if IsFile(fs1, src) {
      CopyFileConfined(fs1, src, target, fault, region);
    }
  }

  /** One entry writes only below the staging root, and its destination
      directory exists once that step has passed, whatever the copy does. */
  lemma EntryConfined(fs: FileSystem, base: Path, key: string, src: Path, dest: RelPath, fault: Fault)
    requires AllDirs(fs, StagingRoot(base, key)) && Basename(src) != ""
    ensures var r := ReconcileEntry(fs, base, key, src, dest, fault);
      && Confined(fs, r.fs, StagingRoot(base, key))
      && AllDirs(r.fs, StagingRoot(base, key))
      && (fault != AtMakeDirs && MakeDirs(fs, StagingRoot(base, key) + dest).Ok? ==>
            IsDir(r.fs, StagingRoot(base, key) + dest))
  {
    var root := StagingRoot(base, key);
    var stage := root + dest;
    var made := Guard(fault == AtMakeDirs, MakeDirs(fs, stage));
    if made.Ok? {
      var fs1 := made.fs;
      forall q | !Below(root, q) ensures Untouched(fs, fs1, q) {
        if q in Prefixes(stage) {
          PrefixesAreIsPrefix(stage, q);
          PrefixOfExtension(root, stage, q);
        }
      }
      ConfinedKeepsDirs(fs, fs1, root);
      var target := Target(base, key, dest, src);
      assert target == stage + [Basename(src)];
      assert Below(stage, target);
      assert AllDirs(fs1, stage);
      ClassifyConfined(fs1, src, target, fault, stage);
      var r := Classify(fs1, src, target, fault);
      forall q | !Below(root, q) ensures Untouched(fs, r.fs, q) {
        if Below(stage, q) {
          BelowWiden(root, stage, q);
        }
      }
      assert stage[..|stage|] == stage;
      ConfinedKeepsDirs(fs, r.fs, root);
      assert IsDir(r.fs, stage) by {
        assert !Below(stage, stage);
        assert stage in Prefixes(stage);
      }
    }
  }

  lemma {:induction false} EntriesConfined(fs: FileSystem, base: Path, key: string,
                                           entries: seq<(Path, RelPath)>, fault: Path -> Fault)
    requires AllDirs(fs, StagingRoot(base, key))
    requires forall i :: 0 <= i < |entries| ==> Basename(entries[i].0) != ""
    ensures var r := ReconcileEntries(fs, base, key, entries, fault);
      Confined(fs, r.fs, StagingRoot(base, key)) && AllDirs(r.fs, StagingRoot(base, key))
    decreases |entries|
  {
    var step := EntryStep(base, key, fault);
    if |entries| > 0 {
      var head := ReconcileEntry(fs, base, key, entries[0].0, entries[0].1, fault(entries[0].0));
      assert step(fs, entries[0]) == head;
      EntryConfined(fs, base, key, entries[0].0, entries[0].1, fault(entries[0].0));
      EntriesConfined(head.fs, base, key, entries[1..], fault);
      assert ReconcileEntries(head.fs, base, key, entries[1..], fault) == Fold(head.fs, entries[1..], step);
    }
  }

  /** A whole run on a known machine: the staging root exists at the end,
      and nothing outside it changed except that its missing ancestors were
      created — the sources are only read. Needs every source to have a
      name (the filesystem root as a source would make its target the
      staging directory itself). */
  lemma ReconcileConfined(store: Store, fs: FileSystem, base: Path, machine: string, order: seq<Path>,
                          fault: Path -> Fault)
    requires Lower(machine) in LoadStash(store).manifest ==>
               Enumerates(order, LoadStash(store).manifest[Lower(machine)])
    requires forall i :: 0 <= i < |order| ==> Basename(order[i]) != ""
    ensures var r := Reconcile(store, fs, base, machine, order, fault);
      r.Reconciled? ==>
        && AllDirs(r.fs, StagingRoot(base, Lower(machine)))
        && forall q :: !IsPrefix(q, StagingRoot(base, Lower(machine))) && !Below(StagingRoot(base, Lower(machine)), q)
                       ==> Untouched(fs, r.fs, q)
  {
    var loaded := LoadStash(store);
    var key := Lower(machine);
    var root := StagingRoot(base, key);
    if key in loaded.manifest && MakeDirs(fs, root).Ok? {
      var fs1 := MakeDirs(fs, root).fs;
      var entries := InOrder(loaded.manifest[key], order);
      EntriesConfined(fs1, base, key, entries, fault);
      var r := ReconcileEntries(fs1, base, key, entries, fault);
      forall q | !IsPrefix(q, root) && !Below(root, q) ensures Untouched(fs, r.fs, q) {
        PrefixesAreIsPrefix(root, q);
      }
    }
  }

  // ---------------------------------------------------------------------
  // What one entry leaves at its target
  // ---------------------------------------------------------------------

  /** Two trees that do not contain one another share no path. */
  lemma DisjointSubtrees(src: Path, target: Path, x: Path)
    requires !IsPrefix(src, target) && !IsPrefix(target, src)
    ensures !IsPrefix(target, src + x)
  {
  }

  /** The state `CopyDirectory` copies into: the old target removed if it
      existed. */
  function ClearedTarget(fs1: FileSystem, target: Path): FileSystem
  {
    if target in fs1 && RmTree(fs1, target).Ok? then RmTree(fs1, target).fs else fs1
  }

  /** After clearing, nothing at or below the target is left, and nothing
      else changed. */
  lemma ClearingEmptiesTarget(fs1: FileSystem, target: Path)
    requires Rooted(fs1) && !IsFile(fs1, target)
    ensures forall q :: q in ClearedTarget(fs1, target) ==> !IsPrefix(target, q)
    ensures forall q :: !IsPrefix(target, q) ==> Untouched(fs1, ClearedTarget(fs1, target), q)
  {
    forall q | q in fs1 && target !in fs1 ensures !IsPrefix(target, q) {
      if IsPrefix(target, q) {
        RootedAncestor(fs1, target, q);
      }
    }
  }

  /** Copying a tree to a place where nothing exists yet and whose ancestors
      are directories yields exactly the source's tree there. */
  lemma CopyIntoEmpty(fs2: FileSystem, src: Path, target: Path)
    requires IsDir(fs2, src) && src + [] == src
    requires forall q :: q in fs2 ==> !IsPrefix(target, q)
    requires forall q :: q in Prefixes(target) && q != target ==> IsDir(fs2, q)
    ensures CopyTree(fs2, src, target).Ok?
    ensures var fs3 := CopyTree(fs2, src, target).fs;
      && (forall x :: target + x in fs3 <==> src + x in fs2)
      && (forall x :: src + x in fs2 ==> fs3[target + x] == fs2[src + x])
  {
    assert target[..|target|] == target;
    var made := MakeDirs(fs2, target).fs;
    var mirror := Mirror(fs2, src, target);
    forall x | target + x in made ensures target + x in mirror {
      assert IsPrefix(target, target + x);
      if target + x !in fs2 {
        PrefixesAreIsPrefix(target, target + x);
        assert x == [];
      }
    }
  }

  /** Copying a directory onto a target whose ancestors exist: the target
      ends up holding exactly the source's tree, nothing kept from before. */
  lemma CopyDirectoryMirrors(fs1: FileSystem, src: Path, target: Path)
    requires Rooted(fs1) && IsDir(fs1, src)
    requires |target| > 0 && AllDirs(fs1, target[..|target| - 1]) && !IsFile(fs1, target)
    requires !IsPrefix(src, target) && !IsPrefix(target, src)
    ensures var r := CopyDirectory(fs1, src, target, NoFault);
      && r.reports == [CopiedDirectory(src, target)]
      && (forall x :: target + x in r.fs <==> src + x in fs1)
      && (forall x :: src + x in fs1 ==> r.fs[target + x] == fs1[src + x])
  {
    var fs2 := ClearedTarget(fs1, target);
    ClearingEmptiesTarget(fs1, target);
    forall x ensures !IsPrefix(target, src + x) {
      DisjointSubtrees(src, target, x);
    }
    ClearingKeepsParents(fs1, target);
    assert src + [] == src;
    CopyIntoEmpty(fs2, src, target);
    CopyDirectoryUnfaulted(fs1, src, target);
  }

  /** Without a fault, copying a directory over a non-file target clears it
      and copies the tree into the cleared state. */
  lemma CopyDirectoryUnfaulted(fs1: FileSystem, src: Path, target: Path)
    requires !IsFile(fs1, target) && CopyTree(ClearedTarget(fs1, target), src, target).Ok?
    ensures CopyDirectory(fs1, src, target, NoFault)
      == Applied(CopyTree(ClearedTarget(fs1, target), src, target).fs, [CopiedDirectory(src, target)])
  {
  }

  /** Clearing the target leaves its ancestors directories. */
  lemma ClearingKeepsParents(fs1: FileSystem, target: Path)
    requires Rooted(fs1) && |target| > 0 && AllDirs(fs1, target[..|target| - 1]) && !IsFile(fs1, target)
    ensures forall q :: q in Prefixes(target) && q != target ==> IsDir(ClearedTarget(fs1, target), q)
  {
    var fs2 := ClearedTarget(fs1, target);
    ClearingEmptiesTarget(fs1, target);
    var parent := target[..|target| - 1];
    forall q | q in Prefixes(target) && q != target ensures IsDir(fs2, q) {
      var i :| 0 <= i <= |target| && q == target[..i];
      assert q == parent[..i];
      assert q in Prefixes(parent);
    }
  }

  lemma PrefixTransitive(a: Path, b: Path, c: Path)
    requires IsPrefix(a, b) && IsPrefix(b, c)
    ensures IsPrefix(a, c)
  {
    assert c[..|a|] == c[..|b|][..|a|];
  }

  /** Creating a directory chain leaves every tree that is not on it alone. */
  lemma MakeDirsKeepsSubtree(fs: FileSystem, stage: Path, src: Path)
    requires MakeDirs(fs, stage).Ok? && !IsPrefix(src, stage)
    ensures forall x :: Untouched(fs, MakeDirs(fs, stage).fs, src + x)
  {
    var fs1 := MakeDirs(fs, stage).fs;
    forall x ensures Untouched(fs, fs1, src + x) {
      var q := src + x;
      assert q[..|src|] == src;
      if IsPrefix(q, stage) {
        PrefixTransitive(src, q, stage);
      }
      PrefixesAreIsPrefix(stage, q);
    }
  }

  /** A directory entry with no fault, whose destination can be created and
      whose target is not a file, replaces the target with an exact copy of
      the source tree. */
  lemma EntryMirrorsDirectory(fs: FileSystem, base: Path, key: string, src: Path, dest: RelPath)
    requires Rooted(fs) && IsDir(fs, src) && Basename(src) != ""
    requires MakeDirs(fs, StagingRoot(base, key) + dest).Ok?
    requires !IsFile(fs, Target(base, key, dest, src))
    requires !IsPrefix(src, Target(base, key, dest, src)) && !IsPrefix(Target(base, key, dest, src), src)
    ensures var r := ReconcileEntry(fs, base, key, src, dest, NoFault);
      var target := Target(base, key, dest, src);
      && r.reports == [CopiedDirectory(src, target)]
      && (forall x :: target + x in r.fs <==> src + x in fs)
      && (forall x :: src + x in fs ==> r.fs[target + x] == fs[src + x])
  {
    var stage := StagingRoot(base, key) + dest;
    var target := Target(base, key, dest, src);
    assert target == stage + [Basename(src)];
    assert target[..|target| - 1] == stage;
    var fs1 := MakeDirs(fs, stage).fs;
    assert IsPrefix(stage, target);
    assert !IsPrefix(src, stage) by {
      if IsPrefix(src, stage) { PrefixTransitive(src, stage, target); }
    }
    MakeDirsKeepsSubtree(fs, stage, src);
    assert src + [] == src;
    assert IsDir(fs1, src);
    assert target !in Prefixes(stage) by {
      if target in Prefixes(stage) { PrefixesAreIsPrefix(stage, target); }
    }
    assert !IsFile(fs1, target);
    assert ReconcileEntry(fs, base, key, src, dest, NoFault) == Classify(fs1, src, target, NoFault);
    assert Classify(fs1, src, target, NoFault) == CopyDirectory(fs1, src, target, NoFault);
    CopyDirectoryMirrors(fs1, src, target);
  }

  /** A file entry with no fault overwrites its target with the source's
      content, provided the target is not a directory and not the source. */
  lemma EntryOverwritesFile(fs: FileSystem, base: Path, key: string, src: Path, dest: RelPath)
    requires IsFile(fs, src) && Basename(src) != ""
    requires MakeDirs(fs, StagingRoot(base, key) + dest).Ok?
    requires !IsDir(fs, Target(base, key, dest, src)) && Target(base, key, dest, src) != src
    ensures var r := ReconcileEntry(fs, base, key, src, dest, NoFault);
      var target := Target(base, key, dest, src);
      && r.reports == [CopiedFile(src, target)]
      && r.fs == MakeDirs(fs, StagingRoot(base, key) + dest).fs[target := fs[src]]
      && r.fs[target] == fs[src]
  {
    var stage := StagingRoot(base, key) + dest;
    var target := Target(base, key, dest, src);
    assert target == stage + [Basename(src)];
    assert target[..|target| - 1] == stage;
    assert stage[..|stage|] == stage;
    assert target !in Prefixes(stage) by {
      if target in Prefixes(stage) { PrefixesAreIsPrefix(stage, target); }
    }
  }

  /** When a directory already sits at a file entry's target (an earlier
      entry with the same name was a directory), `copy2` writes the file
      inside it, under the file's own name. */
  lemma EntryFileIntoDirectory(fs: FileSystem, base: Path, key: string, src: Path, dest: RelPath)
    requires IsFile(fs, src) && Basename(src) != ""
    requires MakeDirs(fs, StagingRoot(base, key) + dest).Ok?
    requires IsDir(fs, Target(base, key, dest, src))
    requires var inner := Target(base, key, dest, src) + [Basename(src)]; inner != src && !IsDir(fs, inner)
    ensures var r := ReconcileEntry(fs, base, key, src, dest, NoFault);
      var inner := Target(base, key, dest, src) + [Basename(src)];
      && r.reports == [CopiedFile(src, Target(base, key, dest, src))]
      && r.fs == MakeDirs(fs, StagingRoot(base, key) + dest).fs[inner := fs[src]]
  {
    var stage := StagingRoot(base, key) + dest;
    var target := Target(base, key, dest, src);
    var inner := target + [Basename(src)];
    assert target == stage + [Basename(src)];
    assert inner[..|inner| - 1] == target;
    assert target !in Prefixes(stage) by {
      if target in Prefixes(stage) { PrefixesAreIsPrefix(stage, target); }
    }
    assert inner !in Prefixes(stage) by {
      if inner in Prefixes(stage) { PrefixesAreIsPrefix(stage, inner); }
    }
  }

  /** A source that is neither a file nor a directory only produces a
      warning: the destination directory is created and nothing is copied. */
  lemma EntryNeitherOnlyWarns(fs: FileSystem, base: Path, key: string, src: Path, dest: RelPath, fault: Fault)
    requires fault != AtMakeDirs && src !in fs
    requires MakeDirs(fs, StagingRoot(base, key) + dest).Ok?
    requires !IsPrefix(src, StagingRoot(base, key) + dest)
    ensures ReconcileEntry(fs, base, key, src, dest, fault)
            == Applied(MakeDirs(fs, StagingRoot(base, key) + dest).fs, [NeitherFileNorDir(src)])
  {
    var stage := StagingRoot(base, key) + dest;
    assert src !in Prefixes(stage) by {
      if src in Prefixes(stage) { PrefixesAreIsPrefix(stage, src); }
    }
  }

  lemma PrefixesSnoc(p: Path, name: string)
    ensures Prefixes(p + [name]) == Prefixes(p) + {p + [name]}
  {
    var q := p + [name];
    forall r | r in Prefixes(q) ensures r in Prefixes(p) + {q} {
      var i :| 0 <= i <= |q| && r == q[..i];
      if i <= |p| { assert r == p[..i]; } else { assert r == q[..|q|] == q; }
    }
    forall r | r in Prefixes(p) ensures r in Prefixes(q) {
      var i :| 0 <= i <= |p| && r == p[..i];
      assert r == q[..i];
    }
    assert q[..|q|] == q;
  }

  /** Creating one more level below an existing directory chain adds just
      that directory. */
  lemma MakeDirsOneLevel(fs: FileSystem, p: Path, name: string)
    requires AllDirs(fs, p) && !IsFile(fs, p + [name])
    ensures MakeDirs(fs, p + [name]) == Ok(fs[p + [name] := Dir])
  {
    PrefixesSnoc(p, name);
    var fs' := MakeDirs(fs, p + [name]).fs;
    assert fs' == fs[p + [name] := Dir];
  }
}

=== FILE: cron.dfy ===
/** `cron_edit` of commands/cron.py on an existing crontab: the three lines
    igit manages are built from the two cron strings and the machine name,
    every managed or blank line of the current crontab is dropped, the rest
    are kept in order, and the new lines are appended. */
module Cron {
  import opened Base
  import opened Text
  import opened Utils

  const CopyScript: string := "copymachine.py"
  const GitScript: string := "gitactions.py"
  const NoteMarker: string := "NOTE: Cron will use python"

  const NoteHead: string := "#  "
  // The rest of the note, split into short pieces: the proof that the note
  // holds no newline checks each piece on its own (NoteFrontSingle and
  // NoteBackSingle), which stays cheap where one long literal is not.
  const Note1: string := " version in /usr/bin"
  const Note2: string := " or similar, so you"
  const Note3: string := " may need to install"
  const Note4: string := " click or other"
  const Note5: string := " modules with"
  const Note6: string := " something like"
  const Note7: string := " 'sudo /usr/bin"
  const Note8: string := "/python3"
  const Note9: string := " -m pip install"
  const Note10: string := " click'"

  const NoteTail: string := Note1 + Note2 + Note3 + Note4 + Note5 + Note6 + Note7 + Note8 + Note9 + Note10

  /** The comment line written above the two jobs. */
  const NoteLine: string := NoteHead + NoteMarker + NoteTail

  /** A line igit owns: it mentions one of the two scripts or the note, or it
      is blank. These are the lines a rewrite replaces. */
  predicate Managed(line: string)
    ensures Managed(line) ==> line == "" || |GitScript| <= |line|
  {
    ContainsLength(line, CopyScript);
    ContainsLength(line, GitScript);
    ContainsLength(line, NoteMarker);
    Contains(line, CopyScript) || Contains(line, GitScript) || Contains(line, NoteMarker) || line == ""
  }

  /** `os.path.join(dir, name)` for a relative `name`. */
  function JoinPath(dir: string, name: string): (r: string)
    ensures exists sep :: (sep == "" || sep == "/") && r == dir + sep + name
  {
    if dir == "" || dir[|dir| - 1] == '/' then
      assert dir + name == dir + "" + name;
      dir + name
    else dir + "/" + name
  }

  /** The front of a job line, up to the script's path, starts with the
      cron string and names the script. */
  lemma JobFront(cron: string, base: string, script: string)
    ensures var front := cron + " python3 " + JoinPath(base, script);
      StartsWith(front, cron) && Contains(front, script)
  {
    var path := JoinPath(base, script);
    StartsWithConcat(cron, " python3 ");
    StartsWithExtend(cron + " python3 ", cron, path);
    var sep :| (sep == "" || sep == "/") && path == base + sep + script;
    assert cron + " python3 " + path == (cron + " python3 " + base + sep) + script + "";
    ContainsInside(cron + " python3 " + base + sep, script, "");
  }

  /** Appending to a job line keeps its cron string in front and its script
      named. */
  lemma JobExtend(line: string, cron: string, script: string, more: string)
    requires StartsWith(line, cron) && Contains(line, script)
    ensures StartsWith(line + more, cron) && Contains(line + more, script)
  {
    StartsWithExtend(line, cron, more);
    ContainsExtend(line, script, more);
  }

  /** The copymachine job: run at `copycron`, for the lowered machine name,
      appending its output to copymachine.log beside the script. It starts
      with its cron string and is managed, since it names the script. */
  function CopyJobLine(machine: string, copycron: string, base: string): (r: string)
    ensures StartsWith(r, copycron) && Contains(r, CopyScript) && Managed(r)
  {
    var s1 := copycron + " python3 " + JoinPath(base, CopyScript);
    JobFront(copycron, base, CopyScript);
    var s2 := s1 + " --machine ";
    JobExtend(s1, copycron, CopyScript, " --machine ");
    var s3 := s2 + Lower(machine);
    JobExtend(s2, copycron, CopyScript, Lower(machine));
    var s4 := s3 + " >> ";
    JobExtend(s3, copycron, CopyScript, " >> ");
    var s5 := s4 + JoinPath(base, "copymachine.log");
    JobExtend(s4, copycron, CopyScript, JoinPath(base, "copymachine.log"));
    JobExtend(s5, copycron, CopyScript, " 2>&1");
    s5 + " 2>&1"
  }

  /** The gitactions job: run at `gitcron`, appending to gitactions.log. It
      starts with its cron string and is managed. */
  function GitJobLine(gitcron: string, base: string): (r: string)
    ensures StartsWith(r, gitcron) && Contains(r, GitScript) && Managed(r)
  {
    var s1 := gitcron + " python3 " + JoinPath(base, GitScript);
    JobFront(gitcron, base, GitScript);
    var s2 := s1 + " >> ";
    JobExtend(s1, gitcron, GitScript, " >> ");
    var s3 := s2 + JoinPath(base, "gitactions.log");
    JobExtend(s2, gitcron, GitScript, JoinPath(base, "gitactions.log"));
    JobExtend(s3, gitcron, GitScript, " 2>&1");
    s3 + " 2>&1"
  }

  /** The three lines the edit appends: the note, the copymachine job and the
      gitactions job, in that order. `base` is igit's installation directory.
      Every one is managed, so a later edit replaces the lines an earlier edit
      appended instead of keeping them. */
  function NewLines(machine: string, copycron: string, gitcron: string, base: string): (r: seq<string>)
    ensures |r| == 3 && Contains(r[0], NoteMarker)
    ensures StartsWith(r[1], copycron) && StartsWith(r[2], gitcron)
    ensures forall k :: 0 <= k < |r| ==> Managed(r[k])
  {
    var copy := CopyJobLine(machine, copycron, base);
    var git := GitJobLine(gitcron, base);
    NoteLineManaged();
    AllManaged(NoteLine, copy, git);
    [NoteLine, copy, git]
  }

  lemma AllManaged(a: string, b: string, c: string)
    requires Managed(a) && Managed(b) && Managed(c)
    ensures forall k :: 0 <= k < 3 ==> Managed([a, b, c][k])
  {
  }

  lemma NoteLineManaged()
    ensures Contains(NoteLine, NoteMarker) && Managed(NoteLine)
  {
    ContainsInside(NoteHead, NoteMarker, NoteTail);
  }

  /** A managed line stays managed whatever surrounds it: the test is a
      substring test, so a mention inside a comment or a longer path counts. */
  lemma ManagedInside(front: string, line: string, back: string)
    requires Managed(line) && line != ""
    ensures Managed(front + line + back)
  {
    var sub := if Contains(line, CopyScript) then CopyScript
      else if Contains(line, GitScript) then GitScript else NoteMarker;
    ContainsPrepend(front, line, sub);
    ContainsExtend(front + line, sub, back);
  }

  /** The copymachine job names the lowered machine after `--machine`. */
  lemma CopyJobMachine(machine: string, copycron: string, base: string)
    ensures Contains(CopyJobLine(machine, copycron, base), " --machine " + Lower(machine) + " >> ")
  {
    var front := copycron + " python3 " + JoinPath(base, CopyScript);
    var flag := " --machine " + Lower(machine) + " >> ";
    var s4 := front + " --machine " + Lower(machine) + " >> ";
    assert s4 == front + flag + "";
    ContainsInside(front, flag, "");
    ContainsExtend(s4, flag, JoinPath(base, "copymachine.log"));
    ContainsExtend(s4 + JoinPath(base, "copymachine.log"), flag, " 2>&1");
  }

  // ---------------------------------------------------------------------
  // The rewrite of the line sequence
  // ---------------------------------------------------------------------

  // The rewrite is stated for any drop predicate; the edit uses `Managed`.

  /** The lines a rewrite keeps: those `drop` does not select, in order. */
  function KeepLines(lines: seq<string>, drop: string -> bool): (r: seq<string>)
    ensures |r| <= |lines|
    ensures forall k :: 0 <= k < |r| ==> !drop(r[k])
    ensures forall k :: 0 <= k < |lines| && !drop(lines[k]) ==> lines[k] in r
  {
    if |lines| == 0 then []
    else
      var rest := KeepLines(lines[1..], drop);
      assert forall k :: 1 <= k < |lines| ==> lines[k] == lines[1..][k - 1];
      KeepHead(lines[0], drop) + rest
  }

  /** What one line contributes to the kept lines. */
  function KeepHead(line: string, drop: string -> bool): seq<string>
  {
    if drop(line) then [] else [line]
  }

  /** Every kept line is one of the input lines. */
  lemma {:induction false} KeptAreInputs(lines: seq<string>, drop: string -> bool, line: string)
    requires line in KeepLines(lines, drop)
    ensures line in lines
  {
    if |lines| > 0 && line != lines[0] {
      var rest := KeepLines(lines[1..], drop);
      assert line in rest;
      KeptAreInputs(lines[1..], drop, line);
    }
  }

  /** Filtering distributes over concatenation: kept lines stay in order. */
  lemma {:induction false} KeepLinesAppend(a: seq<string>, b: seq<string>, drop: string -> bool)
    ensures KeepLines(a + b, drop) == KeepLines(a, drop) + KeepLines(b, drop)
  {
    if |a| == 0 {
      assert a + b == b;
    } else {
      var ab := a + b;
      assert ab[0] == a[0] && ab[1..] == a[1..] + b;
      KeepLinesAppend(a[1..], b, drop);
      calc {
        KeepLines(ab, drop);
        KeepHead(a[0], drop) + KeepLines(a[1..] + b, drop);
        KeepHead(a[0], drop) + (KeepLines(a[1..], drop) + KeepLines(b, drop));
      }
    }
  }

  /** Lines none of which is dropped are kept as they are. */
  lemma {:induction false} KeepLinesAllKept(lines: seq<string>, drop: string -> bool)
    requires forall k :: 0 <= k < |lines| ==> !drop(lines[k])
    ensures KeepLines(lines, drop) == lines
  {
    if |lines| > 0 {
      KeepLinesAllKept(lines[1..], drop);
    }
  }

  /** Lines all of which are dropped leave nothing. */
  lemma {:induction false} KeepLinesAllDropped(lines: seq<string>, drop: string -> bool)
    requires forall k :: 0 <= k < |lines| ==> drop(lines[k])
    ensures KeepLines(lines, drop) == []
  {
    if |lines| > 0 {
      KeepLinesAllDropped(lines[1..], drop);
    }
  }

  /** Filtering twice is filtering once. */
  lemma KeepLinesIdempotent(lines: seq<string>, drop: string -> bool)
    ensures KeepLines(KeepLines(lines, drop), drop) == KeepLines(lines, drop)
  {
    KeepLinesAllKept(KeepLines(lines, drop), drop);
  }

  /** `idx` holds the positions of the dropped lines among `lines[..n]`,
      ascending, as the first loop of the rewrite collects them. */
  predicate IndexesOfDropped(lines: seq<string>, drop: string -> bool, n: nat, idx: seq<nat>)
    requires n <= |lines|
  {
    && (forall j :: 0 <= j < |idx| ==> idx[j] < n && drop(lines[idx[j]]))
    && (forall j, j' :: 0 <= j < j' < |idx| ==> idx[j] < idx[j'])
    && (forall i :: 0 <= i < n && drop(lines[i]) ==> i in idx)
  }

  /** The boundary below which the pop loop has not yet touched the lines
      once the indexes from `k` on have been popped. */
  function Boundary(lines: seq<string>, idx: seq<nat>, k: nat): (p: nat)
    requires k <= |idx| && forall j :: 0 <= j < |idx| ==> idx[j] < |lines|
    ensures p <= |lines|
  {
    if k < |idx| then idx[k] else |lines|
  }

  /** Between two consecutive collected indexes every line is kept. */
  lemma NoneDroppedBetween(lines: seq<string>, drop: string -> bool, idx: seq<nat>, k: nat)
    requires IndexesOfDropped(lines, drop, |lines|, idx)
    requires 0 < k <= |idx|
    ensures forall i :: idx[k - 1] < i < Boundary(lines, idx, k) ==> !drop(lines[i])
  {
    forall i | idx[k - 1] < i < Boundary(lines, idx, k) ensures !drop(lines[i]) {
      forall j | 0 <= j < |idx| ensures idx[j] != i {
        if j < k - 1 {
          assert idx[j] < idx[k - 1];
        } else if k < j {
          assert idx[k] < idx[j];
        }
      }
    }
  }

  /** One pop: removing the dropped line at `q` turns the untouched prefix
      `lines[..p]` into `lines[..q]` followed by the filter of `lines[q..p]`. */
  lemma PopStep(lines: seq<string>, drop: string -> bool, q: nat, p: nat)
    requires q < p <= |lines| && drop(lines[q])
    requires forall i :: q < i < p ==> !drop(lines[i])
    ensures lines[..q] + lines[q + 1..p] + KeepLines(lines[p..], drop) == lines[..q] + KeepLines(lines[q..], drop)
  {
    var tail := lines[q + 1..];
    assert lines[q..][1..] == tail;
    assert KeepLines(lines[q..], drop) == KeepLines(tail, drop);
    assert tail[..p - q - 1] == lines[q + 1..p] && tail[p - q - 1..] == lines[p..];
    KeptPrefix(tail, drop, p - q - 1);
  }

  /** A prefix none of whose lines is dropped is kept as it is. */
  lemma KeptPrefix(lines: seq<string>, drop: string -> bool, p: nat)
    requires p <= |lines|
    requires forall i :: 0 <= i < p ==> !drop(lines[i])
    ensures KeepLines(lines, drop) == lines[..p] + KeepLines(lines[p..], drop)
  {
    var head, tail := lines[..p], lines[p..];
    forall k | 0 <= k < |head| ensures !drop(head[k]) {
      assert head[k] == lines[k];
    }
    calc {
      KeepLines(lines, drop);
      { TakeDrop(lines, p); }
      KeepLines(head + tail, drop);
      { KeepLinesAppend(head, tail, drop); }
      KeepLines(head, drop) + KeepLines(tail, drop);
      { KeepLinesAllKept(head, drop); }
      head + KeepLines(tail, drop);
    }
  }

  /** One more line counts towards the kept lines exactly when it is kept. */
  lemma KeptCountStep(lines: seq<string>, drop: string -> bool, i: nat)
    requires i < |lines|
    ensures |KeepLines(lines[..i + 1], drop)| == |KeepLines(lines[..i], drop)| + (if drop(lines[i]) then 0 else 1)
  {
    assert lines[..i + 1] == lines[..i] + [lines[i]];
    KeepLinesAppend(lines[..i], [lines[i]], drop);
  }

  /** One step of the first loop: line `i` is collected when dropped. */
  function Collect(lines: seq<string>, drop: string -> bool, i: nat, idx: seq<nat>): seq<nat>
    requires i < |lines|
  {
    if drop(lines[i]) then idx + [i] else idx
  }

  /** One more step of the first loop keeps `idx` the dropped positions,
      and grows it by one exactly for a dropped line. */
  lemma IndexesStep(lines: seq<string>, drop: string -> bool, i: nat, idx: seq<nat>)
    requires i < |lines| && IndexesOfDropped(lines, drop, i, idx)
    ensures IndexesOfDropped(lines, drop, i + 1, Collect(lines, drop, i, idx))
    ensures |Collect(lines, drop, i, idx)| == |idx| + (if drop(lines[i]) then 1 else 0)
  {
    var next := Collect(lines, drop, i, idx);
    forall j | 0 <= j < i + 1 && drop(lines[j]) ensures j in next {
      if j < i {
        assert j in idx;
      }
    }
  }

  /** The first loop of the rewrite: the positions of the dropped lines. */
  method DropIndexes(lines: seq<string>, drop: string -> bool) returns (idx: seq<nat>)
    ensures IndexesOfDropped(lines, drop, |lines|, idx)
    ensures |idx| + |KeepLines(lines, drop)| == |lines|
  {
    idx := [];
    var i := 0;
    while i < |lines|
      invariant 0 <= i <= |lines|
      invariant IndexesOfDropped(lines, drop, i, idx)
      invariant |idx| + |KeepLines(lines[..i], drop)| == i
    {
      KeptCountStep(lines, drop, i);
      IndexesStep(lines, drop, i, idx);
      idx := Collect(lines, drop, i, idx);
      i := i + 1;
    }
    TakeAll(lines);
  }

  /** No line before the first collected index is dropped. */
  lemma NoneDroppedBeforeFirst(lines: seq<string>, drop: string -> bool, idx: seq<nat>, i: nat)
    requires IndexesOfDropped(lines, drop, |lines|, idx)
    requires i < Boundary(lines, idx, 0)
    ensures !drop(lines[i])
  {
  }

  /** Before the first collected index every line is kept. */
  lemma KeptBeforeFirst(lines: seq<string>, drop: string -> bool, idx: seq<nat>)
    requires IndexesOfDropped(lines, drop, |lines|, idx)
    ensures var p := Boundary(lines, idx, 0);
      KeepLines(lines, drop) == lines[..p] + KeepLines(lines[p..], drop)
  {
    var p := Boundary(lines, idx, 0);
    forall i | 0 <= i < p ensures !drop(lines[i]) {
      NoneDroppedBeforeFirst(lines, drop, idx, i);
    }
    KeptPrefix(lines, drop, p);
  }

  /** One pop of the second loop: the line at the last index still to be
      popped is a dropped line, and removing it moves the boundary down. */
  lemma PopOne(lines: seq<string>, drop: string -> bool, idx: seq<nat>, k: nat, cur: seq<string>)
    requires IndexesOfDropped(lines, drop, |lines|, idx)
    requires 0 < k <= |idx|
    requires cur == lines[..Boundary(lines, idx, k)] + KeepLines(lines[Boundary(lines, idx, k)..], drop)
    ensures idx[k - 1] < |cur| && drop(cur[idx[k - 1]])
    ensures var q := idx[k - 1]; var b := Boundary(lines, idx, k - 1);
      cur[..q] + cur[q + 1..] == lines[..b] + KeepLines(lines[b..], drop)
  {
    var q := idx[k - 1];
    var p := Boundary(lines, idx, k);
    NoneDroppedBetween(lines, drop, idx, k);
    assert cur[q] == lines[q];
    RemoveFromPrefix(lines, q, p, KeepLines(lines[p..], drop));
    PopStep(lines, drop, q, p);
  }

  /** The second loop of the rewrite: pop the collected indexes from the
      back, so that the positions still to be popped stay valid. `removed`
      holds the popped lines in the order they are logged. */
  method PopIndexes(lines: seq<string>, drop: string -> bool, idx: seq<nat>)
    returns (cur: seq<string>, removed: seq<string>)
    requires IndexesOfDropped(lines, drop, |lines|, idx)
    ensures cur == KeepLines(lines, drop)
    ensures |removed| == |idx|
    ensures forall k :: 0 <= k < |removed| ==> drop(removed[k])
  {
    cur := lines;
    removed := [];
    var k := |idx|;
    while k > 0
      invariant 0 <= k <= |idx|
      invariant cur == lines[..Boundary(lines, idx, k)] + KeepLines(lines[Boundary(lines, idx, k)..], drop)
      invariant |removed| == |idx| - k
      invariant forall j :: 0 <= j < |removed| ==> drop(removed[j])
    {
      var q := idx[k - 1];
      PopOne(lines, drop, idx, k, cur);
      removed := removed + [cur[q]];
      cur := cur[..q] + cur[q + 1..];
      k := k - 1;
    }
    KeptBeforeFirst(lines, drop, idx);
  }

  /** The rewrite as the script performs it: collect, pop in reverse, then
      append the new lines. */
  method RewriteLines(lines: seq<string>, drop: string -> bool, newLines: seq<string>)
    returns (r: seq<string>, removed: seq<string>)
    ensures r == KeepLines(lines, drop) + newLines
    ensures |removed| + |KeepLines(lines, drop)| == |lines|
    ensures forall k :: 0 <= k < |removed| ==> drop(removed[k])
  {
    var idx := DropIndexes(lines, drop);
    var cur;
    cur, removed := PopIndexes(lines, drop, idx);
    r := cur + newLines;
  }

  /** The lines written are the kept pieces of the old text and the new
      lines; when no new line holds a newline, splitting the written text
      gives them back, plus the empty piece after the final "\n". */
  lemma WrittenPieces(out: string, drop: string -> bool, newLines: seq<string>)
    ensures var lines := KeepLines(SplitLines(out), drop) + newLines;
      (forall k :: 0 <= k < |newLines| ==> !HasNewline(newLines[k]))
      ==> SplitLines(JoinTerminated(lines)) == lines + [""]
  {
    var kept := KeepLines(SplitLines(out), drop);
    var lines := kept + newLines;
    if forall k :: 0 <= k < |newLines| ==> !HasNewline(newLines[k]) {
      forall k | 0 <= k < |lines| ensures !HasNewline(lines[k]) {
        if k >= |kept| { assert lines[k] == newLines[k - |kept|]; }
        else { KeptAreInputs(SplitLines(out), drop, kept[k]); }
      }
      SplitJoinTerminated(lines);
    }
  }

  /** What the edit writes for crontab text `out`: the kept lines of
      `out.split("\n")` followed by the new lines, each terminated by "\n".
      Reading the written text back gives exactly those lines. */
  function RewrittenText(out: string, drop: string -> bool, newLines: seq<string>): (r: string)
    ensures (forall k :: 0 <= k < |newLines| ==> !HasNewline(newLines[k]))
      ==> SplitLines(r) == KeepLines(SplitLines(out), drop) + newLines + [""]
  {
    WrittenPieces(out, drop, newLines);
    JoinTerminated(KeepLines(SplitLines(out), drop) + newLines)
  }

  /** Re-running the rewrite on the text it wrote writes the same text
      again, provided the new lines are dropped themselves, blank lines are
      dropped (the final "\n" leaves an empty last piece) and no new line
      holds a newline. */
  lemma RewriteIdempotent(out: string, drop: string -> bool, newLines: seq<string>)
    requires drop("")
    requires forall k :: 0 <= k < |newLines| ==> drop(newLines[k]) && !HasNewline(newLines[k])
    ensures RewrittenText(RewrittenText(out, drop, newLines), drop, newLines) == RewrittenText(out, drop, newLines)
  {
    var kept := KeepLines(SplitLines(out), drop);
    var lines := kept + newLines;
    var text := RewrittenText(out, drop, newLines);
    assert SplitLines(text) == lines + [""];
    KeepLinesAppend(lines, [""], drop);
    assert KeepLines([""], drop) == [];
    KeepLinesAppend(kept, newLines, drop);
    KeepLinesAllDropped(newLines, drop);
    KeepLinesIdempotent(SplitLines(out), drop);
    assert KeepLines(SplitLines(text), drop) == kept;
  }

  lemma NoteFrontSingle()
    ensures !HasNewline(Note1 + Note2 + Note3 + Note4 + Note5)
  {
    assert !HasNewline(Note1) && !HasNewline(Note2) && !HasNewline(Note3);
    assert !HasNewline(Note4) && !HasNewline(Note5);
    NewlineConcat(Note1, Note2);
    NewlineConcat(Note1 + Note2, Note3);
    NewlineConcat(Note1 + Note2 + Note3, Note4);
    NewlineConcat(Note1 + Note2 + Note3 + Note4, Note5);
  }

  lemma NoteBackSingle()
    ensures !HasNewline(Note6 + Note7 + Note8 + Note9 + Note10)
  {
    assert !HasNewline(Note6) && !HasNewline(Note7) && !HasNewline(Note8);
    assert !HasNewline(Note9) && !HasNewline(Note10);
    NewlineConcat(Note6, Note7);
    NewlineConcat(Note6 + Note7, Note8);
    NewlineConcat(Note6 + Note7 + Note8, Note9);
    NewlineConcat(Note6 + Note7 + Note8 + Note9, Note10);
  }

  lemma NoteTailSingle()
    ensures !HasNewline(NoteTail)
  {
    var front := Note1 + Note2 + Note3 + Note4 + Note5;
    var back := Note6 + Note7 + Note8 + Note9 + Note10;
    NoteFrontSingle();
    NoteBackSingle();
    NewlineConcat(front, back);
    assert NoteTail == front + back;
  }

  lemma NoteLineSingle()
    ensures !HasNewline(NoteLine)
  {
    NoteTailSingle();
    NewlineConcat(NoteHead, NoteMarker);
    NewlineConcat(NoteHead + NoteMarker, NoteTail);
  }

  lemma JoinPathSingle(dir: string, name: string)
    requires !HasNewline(dir) && !HasNewline(name)
    ensures !HasNewline(JoinPath(dir, name))
  {
    var sep :| (sep == "" || sep == "/") && JoinPath(dir, name) == dir + sep + name;
    NewlineConcat(dir, sep);
    NewlineConcat(dir + sep, name);
  }

  lemma LowerSingle(s: string)
    requires !HasNewline(s)
    ensures !HasNewline(Lower(s))
  {
    var low := Lower(s);
    forall i | 0 <= i < |low| ensures low[i] != '\n' {
      assert low[i] == LowerChar(s[i]);
    }
  }

  lemma CopyJobSingle(machine: string, copycron: string, base: string)
    requires !HasNewline(machine) && !HasNewline(copycron) && !HasNewline(base)
    ensures !HasNewline(CopyJobLine(machine, copycron, base))
  {
    var script := JoinPath(base, CopyScript);
    var log := JoinPath(base, "copymachine.log");
    JoinPathSingle(base, CopyScript);
    JoinPathSingle(base, "copymachine.log");
    LowerSingle(machine);
    NewlineConcat(copycron, " python3 ");
    NewlineConcat(copycron + " python3 ", script);
    NewlineConcat(copycron + " python3 " + script, " --machine ");
    NewlineConcat(copycron + " python3 " + script + " --machine ", Lower(machine));
    NewlineConcat(copycron + " python3 " + script + " --machine " + Lower(machine), " >> ");
    NewlineConcat(copycron + " python3 " + script + " --machine " + Lower(machine) + " >> ", log);
    NewlineConcat(copycron + " python3 " + script + " --machine " + Lower(machine) + " >> " + log, " 2>&1");
  }

  lemma GitJobSingle(gitcron: string, base: string)
    requires !HasNewline(gitcron) && !HasNewline(base)
    ensures !HasNewline(GitJobLine(gitcron, base))
  {
    var script := JoinPath(base, GitScript);
    var log := JoinPath(base, "gitactions.log");
    JoinPathSingle(base, GitScript);
    JoinPathSingle(base, "gitactions.log");
    NewlineConcat(gitcron, " python3 ");
    NewlineConcat(gitcron + " python3 ", script);
    NewlineConcat(gitcron + " python3 " + script, " >> ");
    NewlineConcat(gitcron + " python3 " + script + " >> ", log);
    NewlineConcat(gitcron + " python3 " + script + " >> " + log, " 2>&1");
  }

  /** Neither of the two cron strings, the machine name nor the base
      directory holds a newline, so none of the new lines does. */
  lemma NewLinesSingle(machine: string, copycron: string, gitcron: string, base: string)
    requires !HasNewline(machine) && !HasNewline(copycron) && !HasNewline(gitcron) && !HasNewline(base)
    ensures forall k :: 0 <= k < 3 ==> !HasNewline(NewLines(machine, copycron, gitcron, base)[k])
  {
    NoteLineSingle();
    CopyJobSingle(machine, copycron, base);
    GitJobSingle(gitcron, base);
  }

  // ---------------------------------------------------------------------
  // The edit command on the existing-crontab path
  // ---------------------------------------------------------------------

  datatype Job = CopyJob | GitJob

  datatype CronEvent =
    | Editing(machine: string, copycron: string, gitcron: string, save: bool)
      /** `shown` is the cron string the message prints. */
    | Unparsable(shown: string, job: Job)
    | SavedOld
    | Removing(line: string)
    | AddedLine(line: string)
    | SavedCronfile

  /** The files the edit writes: the previous crontab when `--save` is given,
      and the new crontab. `None` means the file is not written. */
  datatype Edit = Edit(log: seq<Record<CronEvent>>, backup: Option<string>, crontab: Option<string>)

  /** The error messages the edit prints about its cron strings. The one
      about `gitcron` prints `copycron`, as the script's message does. */
  function CronstringErrors(copycron: string, gitcron: string): seq<CronEvent>
  {
    (if CronstringValid(copycron) then [] else [Unparsable(copycron, CopyJob)])
    + (if CronstringValid(gitcron) then [] else [Unparsable(copycron, GitJob)])
  }

  /** The opening of the edit: announce it, then check both cron strings.
      A bad cron string is reported and the edit carries on. */
  function CheckCronstrings(machine: string, copycron: string, gitcron: string, save: bool)
    : (log: seq<Record<CronEvent>>)
    ensures |log| >= 1 && log[0] == Record(Info, Editing(machine, copycron, gitcron, save))
    ensures |log| == 1 + |CronstringErrors(copycron, gitcron)|
    ensures forall k :: 1 <= k < |log| ==> log[k] == Record(Error, CronstringErrors(copycron, gitcron)[k - 1])
    ensures Shown(Error, log) == CronstringErrors(copycron, gitcron)
  {
    var opening := [Record(Info, Editing(machine, copycron, gitcron, save))];
    var copyErrors := if CronstringValid(copycron) then [] else [Record(Error, Unparsable(copycron, CopyJob))];
    var gitErrors := if CronstringValid(gitcron) then [] else [Record(Error, Unparsable(copycron, GitJob))];
    ShownAppend(Error, opening, copyErrors + gitErrors);
    ShownAppend(Error, copyErrors, gitErrors);
    opening + (copyErrors + gitErrors)
  }

  /** The existing-crontab branch of the edit (`out` is not empty): back
      up the old text when `save` is set, rewrite the lines, and write each
      followed by a newline. None of its messages is an error. */
  method RewriteCrontab(out: string, save: bool, newLines: seq<string>)
    returns (log: seq<Record<CronEvent>>, backup: Option<string>, crontab: string)
    ensures Shown(Error, log) == []
    ensures backup == (if save then Some(out) else None)
    ensures crontab == RewrittenText(out, Managed, newLines)
  {
    backup := None;
    var saved: seq<Record<CronEvent>> := [];
    if save {
      backup := Some(out);
      saved := [Record(Debug, SavedOld)];
    }
    var lines := SplitLines(out);
    var last := lines[|lines| - 1];
    var result, removed := RewriteLines(lines, Managed, newLines);
    var rewriteLog := RewriteLog(removed, last);
    ShownNothing(Error, saved);
    ShownNothing(Error, rewriteLog);
    ShownAppend(Error, saved, rewriteLog);
    log := saved + rewriteLog;
    crontab := JoinTerminated(result);
  }

  /** `cron_edit` when reading the current crontab reported no error: `out`
      is its decoded text and `base` igit's installation directory. Invalid
      cron strings are only reported: the errors shown are exactly those of
      `CronstringErrors`. An empty crontab writes nothing; otherwise the
      rewritten crontab is written, after the old one when `save` is set. */
  method CronEdit(machine: string, copycron: string, gitcron: string, save: bool, base: string, out: string)
    returns (r: Edit)
    ensures |r.log| >= 1 && r.log[0] == Record(Info, Editing(machine, copycron, gitcron, save))
    ensures Shown(Error, r.log) == CronstringErrors(copycron, gitcron)
    ensures out == "" ==> r.crontab.None? && r.backup.None?
    ensures out != "" ==> r.crontab == Some(RewrittenText(out, Managed, NewLines(machine, copycron, gitcron, base)))
    ensures out != "" ==> r.backup == (if save then Some(out) else None)
  {
    var log := CheckCronstrings(machine, copycron, gitcron, save);
    if out == "" {
      return Edit(log, None, None);
    }
    var tail, backup, crontab := RewriteCrontab(out, save, NewLines(machine, copycron, gitcron, base));
    ShownAppend(Error, log, tail);
    r := Edit(log + tail, backup, Some(crontab));
  }

  /** The messages of the rewrite itself: one debug message per popped line,
      the "Added line" message and the "Saved" message; none is an error. */
  function RewriteLog(removed: seq<string>, last: string): (r: seq<Record<CronEvent>>)
    ensures |r| == |removed| + 2
    ensures forall k :: 0 <= k < |r| ==> r[k].level != Error
  {
    seq(|removed|, k requires 0 <= k < |removed| => Record(Debug, Removing(removed[k])))
    + [Record(Info, AddedLine(last)), Record(Debug, SavedCronfile)]
  }

  /** Running the edit twice with the same arguments writes the same crontab
      as running it once: the managed lines never pile up. */
  lemma EditIdempotent(machine: string, copycron: string, gitcron: string, base: string, out: string)
    requires !HasNewline(machine) && !HasNewline(copycron) && !HasNewline(gitcron) && !HasNewline(base)
    ensures var lines := NewLines(machine, copycron, gitcron, base);
      RewrittenText(RewrittenText(out, Managed, lines), Managed, lines) == RewrittenText(out, Managed, lines)
  {
    NewLinesSingle(machine, copycron, gitcron, base);
    assert Managed("");
    RewriteIdempotent(out, Managed, NewLines(machine, copycron, gitcron, base));
  }

  // ---------------------------------------------------------------------
  // A cron string with a newline in it
  // ---------------------------------------------------------------------

  /** Text in front of the cron string ends up in front of the job line. */
  lemma CopyJobAfter(machine: string, pre: string, copycron: string, base: string)
    ensures CopyJobLine(machine, pre + copycron, base) == pre + CopyJobLine(machine, copycron, base)
  {
    var script := JoinPath(base, CopyScript);
    var log := JoinPath(base, "copymachine.log");
    var s1 := copycron + " python3 ";
    var s2 := s1 + script;
    var s3 := s2 + " --machine ";
    var s4 := s3 + Lower(machine);
    var s5 := s4 + " >> ";
    var s6 := s5 + log;
    assert CopyJobLine(machine, copycron, base) == s6 + " 2>&1";
    ConcatAssoc(pre, copycron, " python3 ");
    ConcatAssoc(pre, s1, script);
    ConcatAssoc(pre, s2, " --machine ");
    ConcatAssoc(pre, s3, Lower(machine));
    ConcatAssoc(pre, s4, " >> ");
    ConcatAssoc(pre, s5, log);
    ConcatAssoc(pre, s6, " 2>&1");
  }

  lemma NewLinesAre(machine: string, copycron: string, gitcron: string, base: string)
    ensures NewLines(machine, copycron, gitcron, base)
      == [NoteLine, CopyJobLine(machine, copycron, base), GitJobLine(gitcron, base)]
  {
  }

  /** A line holding a newline is written exactly as its two halves are. */
  lemma JoinBrokenLine(a: string, x: string, y: string, d: string)
    ensures JoinTerminated([a, x + "\n" + y, d]) == JoinTerminated([a, x, y, d])
  {
    var broken := x + "\n" + y;
    assert [a, broken, d] == [a] + [broken] + [d];
    assert [a, x, y, d] == [a] + [x, y] + [d];
    JoinTerminatedAppend([a] + [broken], [d]);
    JoinTerminatedAppend([a], [broken]);
    JoinTerminatedAppend([a] + [x, y], [d]);
    JoinTerminatedAppend([a], [x, y]);
    assert JoinTerminated([broken]) == broken + "\n" + "";
    assert [x, y][1..] == [y];
    assert JoinTerminated([y]) == y + "\n" + "";
    assert JoinTerminated([x, y]) == x + "\n" + (y + "\n" + "");
    assert broken + "\n" + "" == x + "\n" + (y + "\n" + "");
  }

  /** The kept lines of a split text are single lines. */
  lemma KeptSingle(out: string)
    ensures forall k :: 0 <= k < |KeepLines(SplitLines(out), Managed)| ==>
      !HasNewline(KeepLines(SplitLines(out), Managed)[k])
  {
    var kept := KeepLines(SplitLines(out), Managed);
    forall k | 0 <= k < |kept| ensures !HasNewline(kept[k]) {
      KeptAreInputs(SplitLines(out), Managed, kept[k]);
    }
  }

  lemma AppendSingle(a: seq<string>, b: seq<string>)
    requires forall k :: 0 <= k < |a| ==> !HasNewline(a[k])
    requires forall k :: 0 <= k < |b| ==> !HasNewline(b[k])
    ensures forall k :: 0 <= k < |a + b| ==> !HasNewline((a + b)[k])
  {
    forall k | 0 <= k < |a + b| ensures !HasNewline((a + b)[k]) {
      if k >= |a| { assert (a + b)[k] == b[k - |a|]; }
    }
  }

  /** Of four lines, only the unmanaged second one is kept. */
  lemma KeepSecondOfFour(a: string, x: string, c: string, d: string)
    requires Managed(a) && !Managed(x) && Managed(c) && Managed(d)
    ensures KeepLines([a, x, c, d], Managed) == [x]
  {
    assert KeepLines([d], Managed) == [];
    assert [c, d][1..] == [d];
    assert KeepLines([c, d], Managed) == [];
    assert [x, c, d][1..] == [c, d];
    assert KeepLines([x, c, d], Managed) == [x];
    assert [a, x, c, d][1..] == [x, c, d];
  }

  /** The new lines for the copymachine cron string "*\n*": its job line
      is "*", a newline, and the job line for "*". */
  lemma NewlineJobLines(machine: string, gitcron: string, base: string)
    ensures NewLines(machine, "*\n*", gitcron, base)
      == [NoteLine, "*" + "\n" + CopyJobLine(machine, "*", base), GitJobLine(gitcron, base)]
  {
    assert "*\n*" == "*\n" + "*";
    CopyJobAfter(machine, "*\n", "*", base);
    NewLinesAre(machine, "*\n*", gitcron, base);
    assert "*" + "\n" == "*\n";
  }

  /** Four single lines, taken as a run of lines. */
  lemma FourSingle(a: string, x: string, y: string, d: string)
    requires !HasNewline(a) && !HasNewline(x) && !HasNewline(y) && !HasNewline(d)
    ensures var written := [a, x, y, d];
      forall k :: 0 <= k < |written| ==> !HasNewline(written[k])
  {
    var written := [a, x, y, d];
    forall k | 0 <= k < |written| ensures !HasNewline(written[k]) {
      if k == 0 { assert written[k] == a; }
      else if k == 1 { assert written[k] == x; }
      else if k == 2 { assert written[k] == y; }
      else { assert written[k] == d; }
    }
  }

  /** Reading back two runs of single lines gives exactly those lines and
      the empty piece after the final newline. */
  lemma SplitTwoRuns(kept: seq<string>, written: seq<string>)
    requires forall k :: 0 <= k < |kept| ==> !HasNewline(kept[k])
    requires forall k :: 0 <= k < |written| ==> !HasNewline(written[k])
    ensures SplitLines(JoinTerminated(kept + written)) == kept + written + [""]
  {
    AppendSingle(kept, written);
    SplitJoinTerminated(kept + written);
  }

  /** A line broken by a newline is written exactly as its two halves. */
  lemma JoinBrokenAfter(kept: seq<string>, a: string, x: string, y: string, d: string)
    ensures JoinTerminated(kept + [a, x + "\n" + y, d]) == JoinTerminated(kept + [a, x, y, d])
  {
    var broken := [a, x + "\n" + y, d];
    var written := [a, x, y, d];
    calc {
      JoinTerminated(kept + broken);
      { JoinTerminatedAppend(kept, broken); }
      JoinTerminated(kept) + JoinTerminated(broken);
      { JoinBrokenLine(a, x, y, d); }
      JoinTerminated(kept) + JoinTerminated(written);
      { JoinTerminatedAppend(kept, written); }
      JoinTerminated(kept + written);
    }
  }

  /** Of the kept lines, four managed-but-one lines and the final empty
      piece, the filter keeps the kept lines and the unmanaged one. */
  lemma KeepAfterBroken(kept: seq<string>, a: string, x: string, y: string, d: string)
    requires KeepLines(kept, Managed) == kept
    requires Managed(a) && !Managed(x) && Managed(y) && Managed(d)
    ensures KeepLines(kept + [a, x, y, d] + [""], Managed) == kept + [x]
  {
    var written := [a, x, y, d];
    var none := KeepLines([""], Managed);
    assert none == [];
    calc {
      KeepLines((kept + written) + [""], Managed);
      { KeepLinesAppend(kept + written, [""], Managed); }
      KeepLines(kept + written, Managed) + none;
      KeepLines(kept + written, Managed);
      { KeepLinesAppend(kept, written, Managed); }
      KeepLines(kept, Managed) + KeepLines(written, Managed);
      { KeepSecondOfFour(a, x, y, d); }
      kept + [x];
    }
  }

  /** With the accepted cron string "*\n*" for the copymachine job, the job
      line written by one edit is read back by the next as two lines, and
      the first of them, "*", is not managed: every edit keeps one more
      line than the crontab it read. */
  lemma NewlineCronKeepsFragment(machine: string, gitcron: string, base: string, out: string)
    requires !HasNewline(machine) && !HasNewline(gitcron) && !HasNewline(base)
    ensures var lines := NewLines(machine, "*\n*", gitcron, base);
      KeepLines(SplitLines(RewrittenText(out, Managed, lines)), Managed)
        == KeepLines(SplitLines(out), Managed) + ["*"]
  {
    var copy := CopyJobLine(machine, "*", base);
    NewlineJobLines(machine, gitcron, base);
    NoteLineSingle();
    NoteLineManaged();
    CopyJobSingle(machine, "*", base);
    GitJobSingle(gitcron, base);
    KeptSingle(out);
    KeepLinesIdempotent(SplitLines(out), Managed);
    assert !Managed("*");
    var kept := KeepLines(SplitLines(out), Managed);
    var git := GitJobLine(gitcron, base);
    JoinBrokenAfter(kept, NoteLine, "*", copy, git);
    FourSingle(NoteLine, "*", copy, git);
    SplitTwoRuns(kept, [NoteLine, "*", copy, git]);
    KeepAfterBroken(kept, NoteLine, "*", copy, git);
  }

  /** `verify_cronstring` accepts "*\n*": `split()` breaks it at the
      newline into two fields, both "*". */
  lemma NewlineCronValid()
    ensures Fields("*\n*") == ["*", "*"]
    ensures CronstringValid("*\n*")
  {
    assert Word("*\n*") == "*";
    assert "*\n*"[1..] == "\n*" && "\n*"[1..] == "*";
  }

  /** With the accepted cron string "*\n*" the edit is not idempotent:
      running it again on the crontab it wrote writes a different crontab,
      one line longer in kept lines each time. */
  lemma NewlineCronPilesUp(machine: string, gitcron: string, base: string, out: string)
    requires !HasNewline(machine) && !HasNewline(gitcron) && !HasNewline(base)
    ensures CronstringValid("*\n*")
    ensures var lines := NewLines(machine, "*\n*", gitcron, base);
      var once := RewrittenText(out, Managed, lines);
      RewrittenText(once, Managed, lines) != once
  {
    NewlineCronValid();
    var lines := NewLines(machine, "*\n*", gitcron, base);
    var once := RewrittenText(out, Managed, lines);
    var twice := RewrittenText(once, Managed, lines);
    NewlineCronKeepsFragment(machine, gitcron, base, once);
    assert |KeepLines(SplitLines(twice), Managed)| == |KeepLines(SplitLines(once), Managed)| + 1;
  }
}

=== FILE: fs.dfy ===
/** An abstract filesystem, and the four operations the reconcile step
    performs on it: `os.makedirs(.., exist_ok=True)`, `shutil.rmtree`,
    `shutil.copytree` and `shutil.copy2`. Metadata, links and partial writes
    are not modelled; a copy moves the node (a directory marker or a file's
    bytes) as it is. */
module Fs {
  import opened Base

  newtype byte = x: int | 0 <= x < 256

  datatype Node = Dir | File(content: seq<byte>)

  type FileSystem = map<Path, Node>

  predicate IsPrefix(p: Path, q: Path)
  {
    |p| <= |q| && q[..|p|] == p
  }

  /** `q` lies strictly inside the tree rooted at `root`. */
  predicate Below(root: Path, q: Path)
  {
    IsPrefix(root, q) && |root| < |q|
  }

  predicate IsDir(fs: FileSystem, p: Path)
  {
    p in fs && fs[p].Dir?
  }

  predicate IsFile(fs: FileSystem, p: Path)
  {
    p in fs && fs[p].File?
  }

  /** Every entry but the root sits in a directory. */
  predicate Rooted(fs: FileSystem)
  {
    forall q :: q in fs && |q| > 0 ==> IsDir(fs, q[..|q| - 1])
  }

  /** Nothing about `q` differs between the two filesystems. */
  predicate Untouched(fs: FileSystem, fs': FileSystem, q: Path)
  {
    (q in fs <==> q in fs') && (q in fs ==> fs'[q] == fs[q])
  }

  /** `os.path.basename`: the last segment, "" for the root. */
  function Basename(p: Path): string
  {
    if |p| == 0 then "" else p[|p| - 1]
  }

  /** `os.path.join(p, name)` for a relative name: an empty name adds nothing. */
  function JoinName(p: Path, name: string): Path
  {
    if name == "" then p else p + [name]
  }

  datatype OsError = NotADirectory | FileExists | IsADirectory | SameFile | NotFound | Raised

  datatype Result = Ok(fs: FileSystem) | Failed(error: OsError)

  /** The path itself and all its ancestors, the root included. */
  function Prefixes(p: Path): set<Path>
  {
    set i | 0 <= i <= |p| :: p[..i]
  }

  lemma PrefixesAreIsPrefix(p: Path, q: Path)
    ensures q in Prefixes(p) <==> IsPrefix(q, p)
  {
    if IsPrefix(q, p) {
      assert p[..|q|] == q;
    }
  }

  /** In a rooted filesystem, whatever lies below a path makes that path exist. */
  lemma {:induction false} RootedAncestor(fs: FileSystem, t: Path, q: Path)
    requires Rooted(fs) && q in fs && IsPrefix(t, q)
    ensures t in fs
    decreases |q|
  {
    if |q| > |t| {
      var parent := q[..|q| - 1];
      assert parent in fs;
      assert IsPrefix(t, parent) by { assert parent[..|t|] == q[..|t|]; }
      RootedAncestor(fs, t, parent);
    } else {
      assert q == t;
    }
  }

  /** `os.makedirs(p, exist_ok=True)`: creates `p` and its missing ancestors;
      fails when any of them is a file. */
  function MakeDirs(fs: FileSystem, p: Path): (r: Result)
    ensures r.Ok? <==> forall q :: q in Prefixes(p) ==> !IsFile(fs, q)
    ensures r.Ok? ==> forall q :: q in Prefixes(p) ==> IsDir(r.fs, q)
    ensures r.Ok? ==> forall q :: q in fs ==> q in r.fs && r.fs[q] == fs[q]
    ensures r.Ok? ==> forall q :: q !in Prefixes(p) ==> Untouched(fs, r.fs, q)
    ensures r.Ok? && Rooted(fs) ==> Rooted(r.fs)
  {
    if exists q :: q in Prefixes(p) && IsFile(fs, q) then
      if IsFile(fs, p) then Failed(FileExists) else Failed(NotADirectory)
    else
      var fs' := fs + map q | q in Prefixes(p) :: Dir;
      if Rooted(fs) then
        AddingPrefixesKeepsRooted(fs, p);
        Ok(fs')
      else
        Ok(fs')
  }

  /** Adding a path with all its ancestors as directories keeps every entry's
      parent a directory. */
  lemma AddingPrefixesKeepsRooted(fs: FileSystem, p: Path)
    requires Rooted(fs)
    ensures Rooted(fs + map q | q in Prefixes(p) :: Dir)
  {
    var fs' := fs + map q | q in Prefixes(p) :: Dir;
    forall q | q in fs' && |q| > 0 ensures IsDir(fs', q[..|q| - 1]) {
      if q in Prefixes(p) {
        var i :| 0 <= i <= |p| && q == p[..i];
        assert q[..|q| - 1] == p[..i - 1];
      }
    }
  }

  /** `shutil.rmtree(t)`: removes `t` and everything below it; fails when
      `t` is missing or is not a directory. */
  function RmTree(fs: FileSystem, t: Path): (r: Result)
    ensures r.Ok? <==> IsDir(fs, t)
    ensures r.Ok? ==> forall q :: (q in r.fs <==> q in fs && !IsPrefix(t, q))
    ensures r.Ok? ==> forall q :: !IsPrefix(t, q) ==> Untouched(fs, r.fs, q)
  {
    if t !in fs then Failed(NotFound)
    else if !IsDir(fs, t) then Failed(NotADirectory)
    else Ok(map q | q in fs && !IsPrefix(t, q) :: fs[q])
  }

  /** A path below `src`, moved to the same place below `dst`. */
  function Rebase(q: Path, src: Path, dst: Path): Path
    requires IsPrefix(src, q)
  {
    dst + q[|src|..]
  }

  lemma RebaseSplit(q: Path, src: Path, dst: Path)
    requires IsPrefix(src, q)
    ensures q == src + q[|src|..]
    ensures IsPrefix(dst, Rebase(q, src, dst)) && Rebase(q, src, dst)[|dst|..] == q[|src|..]
  {
  }

  lemma RebaseOf(src: Path, dst: Path, r: Path)
    ensures IsPrefix(src, src + r) && Rebase(src + r, src, dst) == dst + r
  {
    assert (src + r)[..|src|] == src;
    assert (src + r)[|src|..] == r;
  }

  /** The copies `copytree(src, dst)` writes: each path below `src`, moved
      below `dst`. */
  function Mirror(fs: FileSystem, src: Path, dst: Path): (m: FileSystem)
    ensures forall r :: dst + r in m <==> src + r in fs
    ensures forall r :: src + r in fs ==> m[dst + r] == fs[src + r]
    ensures forall q :: q in m ==> IsPrefix(dst, q)
  {
    assert forall q1, q2 :: IsPrefix(src, q1) && IsPrefix(src, q2) && Rebase(q1, src, dst) == Rebase(q2, src, dst)
             ==> q1 == q2 by {
      forall q1, q2 | IsPrefix(src, q1) && IsPrefix(src, q2) && Rebase(q1, src, dst) == Rebase(q2, src, dst)
        ensures q1 == q2
      {
        RebaseSplit(q1, src, dst);
        RebaseSplit(q2, src, dst);
      }
    }
    var m := map q | q in fs && IsPrefix(src, q) :: Rebase(q, src, dst) := fs[q];
    forall r ensures dst + r in m <==> src + r in fs
      ensures src + r in fs ==> m[dst + r] == fs[src + r]
    {
      RebaseOf(src, dst, r);
      if dst + r in m {
        var q :| q in fs && IsPrefix(src, q) && Rebase(q, src, dst) == dst + r;
        RebaseSplit(q, src, dst);
        assert q[|src|..] == (dst + r)[|dst|..] == r;
      }
    }
    forall q | q in m ensures IsPrefix(dst, q) {
      var q0 :| q0 in fs && IsPrefix(src, q0) && Rebase(q0, src, dst) == q;
      RebaseSplit(q0, src, dst);
    }
    m
  }

  /** `shutil.copytree(src, dst)`: fails when `src` is missing or is not a
      directory (it is scanned first), when `dst` exists or when one of its
      ancestors is a file; otherwise creates `dst` with its ancestors and
      copies the tree below `src` into it. Nothing outside `dst`'s ancestors
      and subtree changes, and `dst` ends up holding exactly the source tree. */
  function CopyTree(fs: FileSystem, src: Path, dst: Path): (r: Result)
    ensures r.Ok? <==> IsDir(fs, src) && dst !in fs && forall q :: q in Prefixes(dst) ==> !IsFile(fs, q)
    ensures r.Ok? ==> forall q :: q in Prefixes(dst) && q != dst ==> IsDir(r.fs, q)
    ensures r.Ok? ==> forall q :: q !in Prefixes(dst) && !IsPrefix(dst, q) ==> Untouched(fs, r.fs, q)
    ensures r.Ok? && Rooted(fs) ==> forall x :: dst + x in r.fs <==> src + x in fs
    ensures r.Ok? && Rooted(fs) ==> forall x :: src + x in fs ==> r.fs[dst + x] == fs[src + x]
  {
    if src !in fs then Failed(NotFound)
    else if !IsDir(fs, src) then Failed(NotADirectory)
    else if dst in fs then Failed(FileExists)
    else
      match MakeDirs(fs, dst)
      case Failed(e) => Failed(e)
      case Ok(fs1) =>
        CopiedTree(fs, src, dst);
        if Rooted(fs) then
          CopiedTreeMirrors(fs, src, dst);
          Ok(fs1 + Mirror(fs, src, dst))
        else
          Ok(fs1 + Mirror(fs, src, dst))
  }

  lemma CopiedTree(fs: FileSystem, src: Path, dst: Path)
    requires dst !in fs && MakeDirs(fs, dst).Ok?
    ensures var c := MakeDirs(fs, dst).fs + Mirror(fs, src, dst);
      && (forall q :: q in Prefixes(dst) && q != dst ==> IsDir(c, q))
      && (forall q :: q !in Prefixes(dst) && !IsPrefix(dst, q) ==> Untouched(fs, c, q))
  {
  }

  /** In a rooted filesystem without `dst`, the copy holds below `dst`
      exactly the source tree. */
  lemma CopiedTreeMirrors(fs: FileSystem, src: Path, dst: Path)
    requires dst !in fs && MakeDirs(fs, dst).Ok? && Rooted(fs) && IsDir(fs, src)
    ensures var c := MakeDirs(fs, dst).fs + Mirror(fs, src, dst);
      && (forall x :: dst + x in c <==> src + x in fs)
      && (forall x :: src + x in fs ==> c[dst + x] == fs[src + x])
  {
    var made := MakeDirs(fs, dst).fs;
    var mirror := Mirror(fs, src, dst);
    forall x | dst + x in made ensures dst + x in mirror {
      assert IsPrefix(dst, dst + x);
      if dst + x in fs {
        RootedAncestor(fs, dst, dst + x);
      } else {
        PrefixesAreIsPrefix(dst, dst + x);
        assert x == [];
        assert src + x == src;
      }
    }
  }

  /** Where `copy2(src, dst)` writes: into a directory `dst`, under the
      source's name; otherwise at `dst` itself. */
  function CopyDestination(fs: FileSystem, src: Path, dst: Path): Path
  {
    if IsDir(fs, dst) then JoinName(dst, Basename(src)) else dst
  }

  /** `shutil.copy2(src, dst)`: overwrites the destination with the source
      file. Fails on the same file, a missing source, a destination that is
      a directory, or a destination whose parent is not a directory. */
  function Copy2(fs: FileSystem, src: Path, dst: Path): (r: Result)
    ensures var actual := CopyDestination(fs, src, dst);
      && (r.Ok? <==> actual != src && IsFile(fs, src) && !IsDir(fs, actual) && |actual| > 0
                     && IsDir(fs, actual[..|actual| - 1]))
      && (r.Ok? ==> r.fs == fs[actual := fs[src]])
  {
    var actual := CopyDestination(fs, src, dst);
    if actual == src then Failed(SameFile)
    else if !IsFile(fs, src) then Failed(NotFound)
    else if IsDir(fs, actual) then Failed(IsADirectory)
    else if |actual| == 0 || !IsDir(fs, actual[..|actual| - 1]) then Failed(NotFound)
    else Ok(fs[actual := fs[src]])
  }
}

=== FILE: stash.dfy ===
/** The stash commands of commands/stash.py: create, add, list, clear and
    remove, each a pure function from the stash document (and, for add and
    remove, the filesystem facts and the operator's answers) to the document
    afterwards, the messages logged, and how the command ended. */
module Stash {
  import opened Base
  import opened Text
  import opened Utils

  /** The size above which a file needs confirmation: 2^20 bytes. */
  const MiB: nat := 1048576

  /** How a command ended: normally, through `exit(code)`, or through the
      EOFError `input()` raises when the operator has no answer left. */
  datatype Status = Completed | Exited(code: int) | EndOfInput

  /** The facts `add` reads from the filesystem about one absolute path. */
  datatype Probe = Probe(isDir: bool, size: nat)

  /** The filesystem as `add` and `remove` see it: `os.path.abspath`, and
      `os.path.isdir` with `os.stat(..).st_size`. */
  datatype Env = Env(abspath: string -> Path, probe: Path -> Probe)

  datatype AddOptions = AddOptions(force: bool, filesOnly: bool, dest: RelPath)

  /** What `add` decided for one path. */
  datatype Decision =
    | AlreadyPresent
    | SkippedFilesOnly
    | ForcedDirectory
    | ConfirmedDirectory
    | DeclinedDirectory
    | ForcedLarge
    | ConfirmedLarge
    | DeclinedLarge
    | SmallFile
    | NoAnswer
  {
    predicate Adds()
    {
      this in {ForcedDirectory, ConfirmedDirectory, ForcedLarge, ConfirmedLarge, SmallFile}
    }
  }

  datatype Event =
    | CreatingMachine(machine: string)
    | MachineExists(machine: string)
    | AddingFiles(machine: string, filenames: seq<string>, options: AddOptions)
    | ListingMachine(machine: string)
    | ClearingMachine(machine: string)
    | RemovingFiles(machine: string, filenames: seq<string>)
    | MachineNotFound(machine: string)
    | AlreadyInStash(path: Path)
    | Classified(path: Path, decision: Decision)
    | AddedToStash(path: Path, dest: RelPath)
    | DeletedFromStash(path: Path, machine: string)
    | NotInMachine(path: Path, machine: string)
    | SavingChanges
    | ListedAll(manifest: Manifest)
    | ListedEntries(entries: EntrySet)

  type Log = seq<Record<Event>>

  /** The result of one command. */
  datatype Outcome = Outcome(store: Store, log: Log, status: Status)

  /** The paths a list of command-line names resolves to. */
  function AbsPaths(env: Env, filenames: seq<string>): set<Path>
  {
    set i | 0 <= i < |filenames| :: env.abspath(filenames[i])
  }

  // ---------------------------------------------------------------------
  // create
  // ---------------------------------------------------------------------

  /** `stash create`: the name is stored exactly as given, not lowered. */
  function Create(store: Store, machine: string): (r: Outcome)
    ensures r.status == Completed && r.store.Some?
    ensures var before := LoadStash(store).manifest;
      && r.store.value.Keys == before.Keys + {machine}
      && r.store.value[machine] == (if machine in before then before[machine] else map[])
      && forall k :: k in before ==> r.store.value[k] == before[k]
  {
    var loaded := LoadStash(store);
    var log := [Record(Info, CreatingMachine(machine))];
    if machine !in loaded.manifest then
      Outcome(SaveStash(loaded.manifest[machine := map[]]), log, Completed)
    else
      Outcome(loaded.store, log + [Record(Warning, MachineExists(machine))], Completed)
  }

  /** Creating twice leaves the document as creating once does. */
  lemma CreateIdempotent(store: Store, machine: string)
    ensures Create(Create(store, machine).store, machine).store == Create(store, machine).store
  {
  }

  /** Because `create` keeps the case and every other command lowers it, a
      machine created under a name with capitals cannot be added to. */
  lemma CreateKeepsCase(store: Store, machine: string, filenames: seq<string>, env: Env,
                        options: AddOptions, answers: seq<string>)
    requires Lower(machine) != machine
    requires Lower(machine) !in LoadStash(store).manifest
    ensures machine in Create(store, machine).store.value
    ensures Add(Create(store, machine).store, machine, filenames, env, options, answers).status == Exited(1)
  {
  }

  // ---------------------------------------------------------------------
  // add
  // ---------------------------------------------------------------------

  /** True when `add` has to ask before adding a path that is not yet present. */
  predicate NeedsConsent(probe: Probe, filesOnly: bool)
  {
    if probe.isDir then !filesOnly else probe.size > MiB
  }

  /** The branch structure of `stash_add` for one path, consuming one answer
      each time it asks. */
  function Decide(present: bool, probe: Probe, force: bool, filesOnly: bool, answers: seq<string>)
    : (r: (Decision, seq<string>))
    ensures r.0.Adds() <==>
      && !present
      && !(probe.isDir && filesOnly)
      && (NeedsConsent(probe, filesOnly) ==> force || (|answers| > 0 && Ask(answers[0])))
    ensures r.0 == NoAnswer <==> !present && NeedsConsent(probe, filesOnly) && !force && |answers| == 0
    ensures r.1 == if !present && NeedsConsent(probe, filesOnly) && !force && |answers| > 0
                   then answers[1..] else answers
  {
    if present then (AlreadyPresent, answers)
    else if probe.isDir then
      if filesOnly then (SkippedFilesOnly, answers)
      else if force then (ForcedDirectory, answers)
      else if |answers| == 0 then (NoAnswer, answers)
      else if !Ask(answers[0]) then (DeclinedDirectory, answers[1..])
      else (ConfirmedDirectory, answers[1..])
    else if probe.size > MiB then
      if force then (ForcedLarge, answers)
      else if |answers| == 0 then (NoAnswer, answers)
      else if !Ask(answers[0]) then (DeclinedLarge, answers[1..])
      else (ConfirmedLarge, answers[1..])
    else (SmallFile, answers)
  }

  /** `files_only` only matters for directories. */
  lemma FilesOnlyIgnoredForFiles(present: bool, probe: Probe, force: bool, answers: seq<string>)
    requires !probe.isDir
    ensures Decide(present, probe, force, true, answers) == Decide(present, probe, force, false, answers)
  {
  }

  /** A file of exactly one MiB is small: it is added without a question. */
  lemma OneMiBIsSmall(force: bool, filesOnly: bool, answers: seq<string>)
    ensures Decide(false, Probe(false, MiB), force, filesOnly, answers) == (SmallFile, answers)
    ensures Decide(false, Probe(false, MiB + 1), false, filesOnly, []) == (NoAnswer, [])
  {
  }

  /** The messages `add` logs for one decided path. */
  function DecisionLog(path: Path, decision: Decision, dest: RelPath): Log
  {
    match decision
    case AlreadyPresent => [Record(Warning, AlreadyInStash(path))]
    case ForcedDirectory => [Record(Debug, Classified(path, decision)), Record(Debug, AddedToStash(path, dest))]
    case ForcedLarge => [Record(Debug, Classified(path, decision)), Record(Debug, AddedToStash(path, dest))]
    case ConfirmedDirectory => [Record(Debug, AddedToStash(path, dest))]
    case ConfirmedLarge => [Record(Debug, AddedToStash(path, dest))]
    case SmallFile => [Record(Debug, AddedToStash(path, dest))]
    case NoAnswer => []
    case _ => [Record(Debug, Classified(path, decision))]
  }

  datatype AddRun = AddRun(entries: EntrySet, answers: seq<string>, log: Log, endOfInput: bool)

  /** The loop over `filenames` in `stash_add`, on one machine's entries. */
  function AddPaths(entries: EntrySet, filenames: seq<string>, env: Env, options: AddOptions,
                    answers: seq<string>): (r: AddRun)
    ensures entries.Keys <= r.entries.Keys
    ensures forall p :: p in entries ==> r.entries[p] == entries[p]
    ensures forall p :: p in r.entries && p !in entries ==>
              r.entries[p] == options.dest && p in AbsPaths(env, filenames)
    decreases |filenames|
  {
    if |filenames| == 0 then AddRun(entries, answers, [], false)
    else
      var path := env.abspath(filenames[0]);
      var (decision, rest) := Decide(path in entries, env.probe(path), options.force, options.filesOnly, answers);
      var log := DecisionLog(path, decision, options.dest);
      if decision == NoAnswer then AddRun(entries, rest, log, true)
      else
        var next := if decision.Adds() then entries[path := options.dest] else entries;
        var tail := AddPaths(next, filenames[1..], env, options, rest);
        assert AbsPaths(env, filenames[1..]) <= AbsPaths(env, filenames) by {
          forall p | p in AbsPaths(env, filenames[1..]) ensures p in AbsPaths(env, filenames) {
            var i :| 0 <= i < |filenames[1..]| && env.abspath(filenames[1..][i]) == p;
            assert env.abspath(filenames[i + 1]) == p;
          }
        }
        AddRun(tail.entries, tail.answers, log + tail.log, tail.endOfInput)
  }

  /** `stash add`. The machine is looked up lowered; the document is saved
      once, after every path has been decided. */
  function Add(store: Store, machine: string, filenames: seq<string>, env: Env, options: AddOptions,
               answers: seq<string>): (r: Outcome)
    ensures var loaded := LoadStash(store);
      && (Lower(machine) !in loaded.manifest ==> r.status == Exited(1) && r.store == loaded.store)
      && (r.status != Completed ==> r.store == loaded.store)
      && (Lower(machine) in loaded.manifest ==>
            var run := AddPaths(loaded.manifest[Lower(machine)], filenames, env, options, answers);
            && (r.status == Completed <==> !run.endOfInput)
            && (r.status == EndOfInput <==> run.endOfInput))
      && (r.status == Completed ==>
            && Lower(machine) in loaded.manifest
            && r.store.Some?
            && r.store.value.Keys == loaded.manifest.Keys
            && (forall k :: k in loaded.manifest && k != Lower(machine) ==> r.store.value[k] == loaded.manifest[k])
            && r.store.value[Lower(machine)] ==
                 AddPaths(loaded.manifest[Lower(machine)], filenames, env, options, answers).entries)
  {
    var loaded := LoadStash(store);
    var key := Lower(machine);
    var log := [Record(Info, AddingFiles(machine, filenames, options))];
    if key !in loaded.manifest then
      Outcome(loaded.store, log + [Record(Error, MachineNotFound(key))], Exited(1))
    else
      var run := AddPaths(loaded.manifest[key], filenames, env, options, answers);
      if run.endOfInput then Outcome(loaded.store, log + run.log, EndOfInput)
      else
        Outcome(SaveStash(loaded.manifest[key := run.entries]),
                log + run.log + [Record(Debug, SavingChanges)], Completed)
  }

  /** Adding a path that is already present changes nothing about it, and
      says so with a warning. */
  lemma AddPresentUnchanged(entries: EntrySet, filename: string, env: Env, options: AddOptions,
                            answers: seq<string>)
    requires env.abspath(filename) in entries
    ensures AddPaths(entries, [filename], env, options, answers) ==
              AddRun(entries, answers, [Record(Warning, AlreadyInStash(env.abspath(filename)))], false)
  {
  }

  /** With `files_only`, no directory that was not already present is ever
      added, whatever `force` and the answers are. */
  lemma {:induction false} FilesOnlyNeverAddsDirectories(entries: EntrySet, filenames: seq<string>, env: Env,
                                                         options: AddOptions, answers: seq<string>, p: Path)
    requires options.filesOnly && env.probe(p).isDir && p !in entries
    ensures p !in AddPaths(entries, filenames, env, options, answers).entries
    decreases |filenames|
  {
    if |filenames| > 0 {
      var path := env.abspath(filenames[0]);
      var (decision, rest) := Decide(path in entries, env.probe(path), options.force, options.filesOnly, answers);
      if decision != NoAnswer {
        var next := if decision.Adds() then entries[path := options.dest] else entries;
        FilesOnlyNeverAddsDirectories(next, filenames[1..], env, options, rest, p);
      }
    }
  }

  /** In a run that did not stop for lack of an answer, every listed path
      that `add` takes without asking (a small file, or anything under
      `--force`), and that `--files-only` does not refuse, is in the entries. */
  lemma {:induction false} AddedWithoutQuestion(entries: EntrySet, filenames: seq<string>, env: Env,
                                                options: AddOptions, answers: seq<string>, i: nat)
    requires i < |filenames|
    requires var probe := env.probe(env.abspath(filenames[i]));
      && !(probe.isDir && options.filesOnly)
      && (options.force || !NeedsConsent(probe, options.filesOnly))
    ensures var r := AddPaths(entries, filenames, env, options, answers);
      !r.endOfInput ==> env.abspath(filenames[i]) in r.entries
    decreases |filenames|
  {
    var path := env.abspath(filenames[0]);
    var (decision, rest) := Decide(path in entries, env.probe(path), options.force, options.filesOnly, answers);
    if decision != NoAnswer {
      var next := if decision.Adds() then entries[path := options.dest] else entries;
      if i == 0 {
        assert path in next;
      } else {
        assert filenames[1..][i - 1] == filenames[i];
        AddedWithoutQuestion(next, filenames[1..], env, options, rest, i - 1);
      }
    }
  }

  /** The loop over `a + b` is the loop over `a` and then, unless it ran out
      of answers, the loop over `b` from where `a` left off. */
  lemma {:induction false} AddPathsCompose(entries: EntrySet, a: seq<string>, b: seq<string>, env: Env,
                                           options: AddOptions, answers: seq<string>)
    ensures var ra := AddPaths(entries, a, env, options, answers);
      var rb := AddPaths(ra.entries, b, env, options, ra.answers);
      AddPaths(entries, a + b, env, options, answers)
        == if ra.endOfInput then ra else AddRun(rb.entries, rb.answers, ra.log + rb.log, rb.endOfInput)
    decreases |a|
  {
    if |a| == 0 {
      assert a + b == b;
    } else {
      ConcatHead(a, b);
      var path := env.abspath(a[0]);
      var (decision, rest) := Decide(path in entries, env.probe(path), options.force, options.filesOnly, answers);
      if decision != NoAnswer {
        var next := if decision.Adds() then entries[path := options.dest] else entries;
        AddPathsCompose(next, a[1..], b, env, options, rest);
        var ra := AddPaths(next, a[1..], env, options, rest);
        var log := DecisionLog(path, decision, options.dest);
        if !ra.endOfInput {
          var rb := AddPaths(ra.entries, b, env, options, ra.answers);
          ConcatAssoc(log, ra.log, rb.log);
        }
      }
    }
  }

  /** With `--force`, `add` never asks, so it never runs out of answers. */
  lemma {:induction false} ForceNeverAsks(entries: EntrySet, filenames: seq<string>, env: Env,
                                          options: AddOptions, answers: seq<string>)
    requires options.force
    ensures !AddPaths(entries, filenames, env, options, answers).endOfInput
    ensures AddPaths(entries, filenames, env, options, answers).answers == answers
    decreases |filenames|
  {
    if |filenames| > 0 {
      var path := env.abspath(filenames[0]);
      var (decision, rest) := Decide(path in entries, env.probe(path), options.force, options.filesOnly, answers);
      var next := if decision.Adds() then entries[path := options.dest] else entries;
      ForceNeverAsks(next, filenames[1..], env, options, rest);
    }
  }

  /** The whole rule for one path on a known machine: it ends up in the
      machine's entries exactly when it was there already, or it is a small
      file, or it needs consent and `force` is set or the answer is yes —
      and a directory under `files_only` never does. */
  lemma AddOneIff(store: Store, machine: string, filename: string, env: Env, options: AddOptions,
                  answers: seq<string>)
    requires Lower(machine) in LoadStash(store).manifest
    ensures var r := Add(store, machine, [filename], env, options, answers);
      var before := LoadStash(store).manifest[Lower(machine)];
      var p := env.abspath(filename);
      var probe := env.probe(p);
      && (r.status == Completed || r.status == EndOfInput)
      && (r.status == EndOfInput <==>
            p !in before && NeedsConsent(probe, options.filesOnly) && !options.force && |answers| == 0)
      && (r.status == Completed ==>
            (p in r.store.value[Lower(machine)] <==>
               || p in before
               || (&& !(probe.isDir && options.filesOnly)
                   && (NeedsConsent(probe, options.filesOnly) ==> options.force || Ask(answers[0])))))
  {
    var before := LoadStash(store).manifest[Lower(machine)];
    var p := env.abspath(filename);
    var (decision, rest) := Decide(p in before, env.probe(p), options.force, options.filesOnly, answers);
    var next := if decision.Adds() then before[p := options.dest] else before;
    assert [filename][1..] == [];
    assert AddPaths(next, [], env, options, rest).entries == next;
  }

  // ---------------------------------------------------------------------
  // remove
  // ---------------------------------------------------------------------

  datatype RemoveRun = RemoveRun(entries: EntrySet, log: Log)

  /** The loop over `filenames` in the `remove` command. */
  function RemovePaths(entries: EntrySet, filenames: seq<string>, env: Env, key: string): (r: RemoveRun)
    ensures r.entries == entries - AbsPaths(env, filenames)
    ensures |r.log| == |filenames|
    decreases |filenames|
  {
    if |filenames| == 0 then RemoveRun(entries, [])
    else
      var path := env.abspath(filenames[0]);
      var record := if path in entries then Record(Debug, DeletedFromStash(path, key))
                    else Record(Warning, NotInMachine(path, key));
      var tail := RemovePaths(entries - {path}, filenames[1..], env, key);
      assert AbsPaths(env, filenames) == {path} + AbsPaths(env, filenames[1..]) by {
        forall p | p in AbsPaths(env, filenames) ensures p in {path} + AbsPaths(env, filenames[1..]) {
          var i :| 0 <= i < |filenames| && env.abspath(filenames[i]) == p;
          if i > 0 { assert env.abspath(filenames[1..][i - 1]) == p; }
        }
        forall p | p in AbsPaths(env, filenames[1..]) ensures p in AbsPaths(env, filenames) {
          var i :| 0 <= i < |filenames[1..]| && env.abspath(filenames[1..][i]) == p;
          assert env.abspath(filenames[i + 1]) == p;
        }
        assert env.abspath(filenames[0]) == path;
      }
      RemoveRun(tail.entries, [record] + tail.log)
  }

  /** The `remove` command (declared in the source under the name stash_clear). */
  function Remove(store: Store, machine: string, filenames: seq<string>, env: Env): (r: Outcome)
    ensures var loaded := LoadStash(store);
      && (Lower(machine) !in loaded.manifest ==> r.status == Exited(1) && r.store == loaded.store)
      && (Lower(machine) in loaded.manifest ==>
            && r.status == Completed
            && r.store == Some(loaded.manifest[Lower(machine) :=
                                 loaded.manifest[Lower(machine)] - AbsPaths(env, filenames)]))
  {
    var loaded := LoadStash(store);
    var key := Lower(machine);
    var log := [Record(Info, RemovingFiles(machine, filenames))];
    if key !in loaded.manifest then
      Outcome(loaded.store, log + [Record(Error, MachineNotFound(machine))], Exited(1))
    else
      var run := RemovePaths(loaded.manifest[key], filenames, env, key);
      Outcome(SaveStash(loaded.manifest[key := run.entries]),
              log + run.log + [Record(Debug, SavingChanges)], Completed)
  }

  /** Adding a new path and then removing it restores the document. */
  lemma AddThenRemoveRestores(store: Store, machine: string, filename: string, env: Env,
                              options: AddOptions, answers: seq<string>)
    requires Lower(machine) in LoadStash(store).manifest
    requires env.abspath(filename) !in LoadStash(store).manifest[Lower(machine)]
    requires Add(store, machine, [filename], env, options, answers).status == Completed
    ensures Remove(Add(store, machine, [filename], env, options, answers).store, machine, [filename], env).store
            == store
  {
    var loaded := LoadStash(store);
    var key := Lower(machine);
    var added := Add(store, machine, [filename], env, options, answers);
    AddOneChangesOneEntry(store, machine, filename, env, options, answers);
    var es' := added.store.value[key];
    assert loaded.manifest[key := loaded.manifest[key]] == loaded.manifest;
    assert store == Some(loaded.manifest);
    assert LoadStash(added.store).manifest == added.store.value;
    assert added.store.value[key := es' - AbsPaths(env, [filename])] == loaded.manifest;
  }

  /** Adding one new file to a known machine changes only that machine's
      entries, and only by the file's absolute path. */
  lemma AddOneChangesOneEntry(store: Store, machine: string, filename: string, env: Env,
                              options: AddOptions, answers: seq<string>)
    requires Lower(machine) in LoadStash(store).manifest
    requires env.abspath(filename) !in LoadStash(store).manifest[Lower(machine)]
    requires Add(store, machine, [filename], env, options, answers).status == Completed
    ensures var added := Add(store, machine, [filename], env, options, answers);
      && var key := Lower(machine);
      && added.store.Some?
      && added.store == Some(LoadStash(store).manifest[key := added.store.value[key]])
      && AbsPaths(env, [filename]) == {env.abspath(filename)}
      && added.store.value[key] - {env.abspath(filename)} == LoadStash(store).manifest[key]
  {
    var loaded := LoadStash(store);
    var key := Lower(machine);
    var p := env.abspath(filename);
    var added := Add(store, machine, [filename], env, options, answers);
    var es := loaded.manifest[key];
    var es' := added.store.value[key];
    assert AbsPaths(env, [filename]) == {p} by {
      assert env.abspath([filename][0]) == p;
    }
    var (decision, rest) := Decide(false, env.probe(p), options.force, options.filesOnly, answers);
    assert [filename][1..] == [];
    assert AddPaths(es[p := options.dest], [], env, options, rest).entries == es[p := options.dest];
    assert es' == es[p := options.dest] || es' == es;
    assert es' - {p} == es;
  }

  // ---------------------------------------------------------------------
  // list and clear
  // ---------------------------------------------------------------------

  /** `stash list`: prints the whole document for "all" (in any case),
      one machine's entries for a known machine, and exits 1 otherwise. It
      never saves. */
  function List(store: Store, machine: string): (r: Outcome)
    ensures r.store == LoadStash(store).store
    ensures r.status == Completed <==> Lower(machine) == "all" || Lower(machine) in LoadStash(store).manifest
    ensures r.status != Completed ==> r.status == Exited(1)
    ensures Lower(machine) == "all" ==> Record(Info, ListedAll(LoadStash(store).manifest)) in r.log
    ensures Lower(machine) != "all" && r.status == Completed ==>
              Record(Info, ListedEntries(LoadStash(store).manifest[Lower(machine)])) in r.log
  {
    var loaded := LoadStash(store);
    var key := Lower(machine);
    var log := [Record(Info, ListingMachine(machine))];
    if key == "all" then Outcome(loaded.store, log + [Record(Info, ListedAll(loaded.manifest))], Completed)
    else if key in loaded.manifest then
      Outcome(loaded.store, log + [Record(Info, ListedEntries(loaded.manifest[key]))], Completed)
    else Outcome(loaded.store, log + [Record(Error, MachineNotFound(machine))], Exited(1))
  }

  /** `stash clear`: "all" empties the whole document; a known machine keeps
      its key with no entries; anything else exits 1 without saving. */
  function Clear(store: Store, machine: string): (r: Outcome)
    ensures var loaded := LoadStash(store);
      && (Lower(machine) == "all" ==> r.store == Some(map[]) && r.status == Completed)
      && (Lower(machine) != "all" && Lower(machine) in loaded.manifest ==>
            && r.status == Completed
            && r.store.Some?
            && r.store.value.Keys == loaded.manifest.Keys
            && r.store.value[Lower(machine)] == map[]
            && (forall k :: k in loaded.manifest && k != Lower(machine) ==> r.store.value[k] == loaded.manifest[k]))
      && (Lower(machine) != "all" && Lower(machine) !in loaded.manifest ==>
            r.status == Exited(1) && r.store == loaded.store)
  {
    var loaded := LoadStash(store);
    var key := Lower(machine);
    var log := [Record(Info, ClearingMachine(machine))];
    if key == "all" then Outcome(SaveStash(map[]), log, Completed)
    else if key in loaded.manifest then Outcome(SaveStash(loaded.manifest[key := map[]]), log, Completed)
    else Outcome(loaded.store, log + [Record(Error, MachineNotFound(machine))], Exited(1))
  }
}

=== FILE: text.dfy ===
/** The few string operations the scripts rely on: Python's `str.lower`,
    substring tests, `str.split("\n")` and `str.split()`. */
module Text {

  /** `str.lower` on one character. Only ASCII letters are mapped. */
  function LowerChar(c: char): char
  {
    if 'A' <= c <= 'Z' then (c as int + 32) as char else c
  }

  function Lower(s: string): (r: string)
    ensures |r| == |s|
    ensures forall i :: 0 <= i < |s| ==> r[i] == LowerChar(s[i])
  {
    seq(|s|, i requires 0 <= i < |s| => LowerChar(s[i]))
  }

  /** Lowering twice is lowering once. */
  lemma LowerIdempotent(s: string)
    ensures Lower(Lower(s)) == Lower(s)
  {
    var l := Lower(s);
    assert forall i :: 0 <= i < |l| ==> LowerChar(l[i]) == l[i];
  }

  predicate StartsWith(s: string, prefix: string)
  {
    |prefix| <= |s| && s[..|prefix|] == prefix
  }

  /** The head and tail of a concatenation with a non-empty front. */
  lemma ConcatHead<T>(a: seq<T>, b: seq<T>)
    requires |a| > 0
    ensures (a + b)[0] == a[0] && (a + b)[1..] == a[1..] + b
  {
  }

  lemma ConcatAssoc<T>(a: seq<T>, b: seq<T>, c: seq<T>)
    ensures a + (b + c) == (a + b) + c
  {
  }

  /** Taking everything takes the whole sequence. */
  lemma TakeAll<T>(s: seq<T>)
    ensures s[..|s|] == s
  {
  }

  /** A sequence is its prefix followed by the rest. */
  lemma TakeDrop<T>(s: seq<T>, p: nat)
    requires p <= |s|
    ensures s[..p] + s[p..] == s
  {
  }

  /** Removing position `q` from a sequence that starts with `s[..p]`
      removes it from that prefix. */
  lemma RemoveFromPrefix<T>(s: seq<T>, q: nat, p: nat, rest: seq<T>)
    requires q < p <= |s|
    ensures var cur := s[..p] + rest;
      cur[..q] + cur[q + 1..] == s[..q] + s[q + 1..p] + rest
  {
    var cur := s[..p] + rest;
    assert cur[..q] == s[..q];
    assert cur[q + 1..] == s[q + 1..p] + rest;
  }

  lemma StartsWithConcat(a: string, b: string)
    ensures StartsWith(a + b, a)
  {
    assert (a + b)[..|a|] == a;
  }

  /** Appending keeps a prefix a prefix. */
  lemma StartsWithExtend(s: string, prefix: string, more: string)
    requires StartsWith(s, prefix)
    ensures StartsWith(s + more, prefix)
  {
    assert (s + more)[..|prefix|] == s[..|prefix|];
  }

  /** Python's `sub in s`. */
  predicate Contains(s: string, sub: string)
    decreases |s|
  {
    StartsWith(s, sub) || (|s| > 0 && Contains(s[1..], sub))
  }

  /** Whatever surrounds it, a string contains itself. */
  lemma {:induction false} ContainsInside(front: string, sub: string, back: string)
    ensures Contains(front + sub + back, sub)
    decreases |front|
  {
    var s := front + sub + back;
    if |front| == 0 {
      assert s[..|sub|] == sub;
    } else {
      assert s[1..] == front[1..] + sub + back;
      ContainsInside(front[1..], sub, back);
    }
  }

  /** A string holds no substring longer than itself. */
  lemma {:induction false} ContainsLength(s: string, sub: string)
    ensures Contains(s, sub) ==> |sub| <= |s|
    decreases |s|
  {
    if Contains(s, sub) && !StartsWith(s, sub) {
      ContainsLength(s[1..], sub);
    }
  }

  /** Appending keeps a substring a substring. */
  lemma {:induction false} ContainsExtend(s: string, sub: string, more: string)
    requires Contains(s, sub)
    ensures Contains(s + more, sub)
    decreases |s|
  {
    if StartsWith(s, sub) {
      StartsWithExtend(s, sub, more);
    } else {
      assert (s + more)[1..] == s[1..] + more;
      ContainsExtend(s[1..], sub, more);
    }
  }

  /** Prepending keeps a substring a substring. */
  lemma {:induction false} ContainsPrepend(front: string, s: string, sub: string)
    requires Contains(s, sub)
    ensures Contains(front + s, sub)
    decreases |front|
  {
    if |front| == 0 {
      assert front + s == s;
    } else {
      assert (front + s)[1..] == front[1..] + s;
      ContainsPrepend(front[1..], s, sub);
    }
  }

  predicate HasNewline(s: string)
  {
    '\n' in s
  }

  /** `"\n".join(pieces)`. */
  function JoinLines(pieces: seq<string>): string
    requires |pieces| >= 1
  {
    if |pieces| == 1 then pieces[0] else pieces[0] + "\n" + JoinLines(pieces[1..])
  }

  /** Putting a character in front of the first piece puts it in front of
      the joined text. */
  lemma JoinLinesFront(c: char, pieces: seq<string>)
    requires |pieces| >= 1
    ensures JoinLines([[c] + pieces[0]] + pieces[1..]) == [c] + JoinLines(pieces)
  {
    var q := [[c] + pieces[0]] + pieces[1..];
    assert q[0] == [c] + pieces[0] && q[1..] == pieces[1..];
    if |pieces| > 1 {
      var tail := "\n" + JoinLines(pieces[1..]);
      calc {
        JoinLines(q);
        q[0] + "\n" + JoinLines(q[1..]);
        { ConcatAssoc(q[0], "\n", JoinLines(q[1..])); }
        ([c] + pieces[0]) + tail;
        { ConcatAssoc([c], pieces[0], tail); }
        [c] + (pieces[0] + tail);
        { ConcatAssoc(pieces[0], "\n", JoinLines(pieces[1..])); }
        [c] + JoinLines(pieces);
      }
    }
  }

  /** Python's `s.split("\n")`: the pieces between newlines, always at least
      one; joining them with "\n" gives `s` back. */
  function SplitLines(s: string): (r: seq<string>)
    ensures |r| >= 1
    ensures forall k :: 0 <= k < |r| ==> !HasNewline(r[k])
    ensures JoinLines(r) == s
    decreases |s|
  {
    if |s| == 0 then [""]
    else if s[0] == '\n' then
      var rest := SplitLines(s[1..]);
      assert ([""] + rest)[1..] == rest;
      assert s == "" + "\n" + s[1..];
      [""] + rest
    else
      var rest := SplitLines(s[1..]);
      assert !HasNewline(rest[0]);
      JoinLinesFront(s[0], rest);
      assert s == [s[0]] + s[1..];
      [[s[0]] + rest[0]] + rest[1..]
  }

  /** A concatenation holds a newline exactly when one of its parts does. */
  lemma NewlineConcat(a: string, b: string)
    ensures HasNewline(a + b) <==> HasNewline(a) || HasNewline(b)
  {
    var s := a + b;
    if HasNewline(s) {
      var i :| 0 <= i < |s| && s[i] == '\n';
      if i >= |a| { assert b[i - |a|] == '\n'; }
    }
    if HasNewline(a) {
      var i :| 0 <= i < |a| && a[i] == '\n';
      assert s[i] == '\n';
    }
    if HasNewline(b) {
      var i :| 0 <= i < |b| && b[i] == '\n';
      assert s[|a| + i] == '\n';
    }
  }

  /** Writing every line followed by "\n", as `cronfile.write(line + "\n")` does. */
  function JoinTerminated(lines: seq<string>): string
  {
    if |lines| == 0 then "" else lines[0] + "\n" + JoinTerminated(lines[1..])
  }

  /** Writing two runs of lines writes the first run, then the second. */
  lemma {:induction false} JoinTerminatedAppend(a: seq<string>, b: seq<string>)
    ensures JoinTerminated(a + b) == JoinTerminated(a) + JoinTerminated(b)
  {
    if |a| == 0 {
      assert a + b == b;
    } else {
      assert (a + b)[0] == a[0] && (a + b)[1..] == a[1..] + b;
      JoinTerminatedAppend(a[1..], b);
    }
  }

  lemma {:induction false} SplitAfterLine(line: string, rest: string)
    requires !HasNewline(line)
    ensures SplitLines(line + "\n" + rest) == [line] + SplitLines(rest)
    decreases |line|
  {
    var s := line + "\n" + rest;
    if |line| == 0 {
      assert s[0] == '\n' && s[1..] == rest;
    } else {
      assert s[0] == line[0] != '\n';
      assert s[1..] == line[1..] + "\n" + rest;
      assert !HasNewline(line[1..]) by {
        forall i | 0 <= i < |line[1..]| ensures line[1..][i] != '\n' {
          assert line[1..][i] == line[i + 1];
        }
      }
      SplitAfterLine(line[1..], rest);
      assert [line[0]] + line[1..] == line;
    }
  }

  /** Reading back a file of newline-terminated lines with `split("\n")`
      gives the lines and one trailing empty piece. */
  lemma {:induction false} SplitJoinTerminated(lines: seq<string>)
    requires forall k :: 0 <= k < |lines| ==> !HasNewline(lines[k])
    ensures SplitLines(JoinTerminated(lines)) == lines + [""]
  {
    if |lines| > 0 {
      SplitAfterLine(lines[0], JoinTerminated(lines[1..]));
      SplitJoinTerminated(lines[1..]);
      assert lines == [lines[0]] + lines[1..];
    }
  }

  /** The characters Python's argument-less `str.split()` treats as
      whitespace, restricted to ASCII and the C0 separators. */
  predicate IsSpace(c: char)
  {
    // space, \t \n \v \f \r, and the file/group/record/unit separators
    c == ' ' || 9 <= c as int <= 13 || 28 <= c as int <= 31
  }

  predicate NoSpace(s: string)
  {
    forall i :: 0 <= i < |s| ==> !IsSpace(s[i])
  }

  /** The longest space-free prefix of `s`. */
  function Word(s: string): (w: string)
    ensures |w| <= |s| && w == s[..|w|] && NoSpace(w)
    ensures |w| < |s| ==> IsSpace(s[|w|])
    decreases |s|
  {
    if |s| == 0 || IsSpace(s[0]) then "" else [s[0]] + Word(s[1..])
  }

  /** `s` with every whitespace character taken out. */
  function Squeeze(s: string): string
  {
    if |s| == 0 then "" else (if IsSpace(s[0]) then "" else [s[0]]) + Squeeze(s[1..])
  }

  /** The fields glued together. */
  function Glue(fields: seq<string>): string
  {
    if |fields| == 0 then "" else fields[0] + Glue(fields[1..])
  }

  /** A space-free front survives squeezing as it is. */
  lemma {:induction false} SqueezeWord(w: string, rest: string)
    requires NoSpace(w)
    ensures Squeeze(w + rest) == w + Squeeze(rest)
    decreases |w|
  {
    if |w| > 0 {
      var s := w + rest;
      assert s[0] == w[0] && !IsSpace(w[0]);
      assert s[1..] == w[1..] + rest;
      assert NoSpace(w[1..]) by {
        forall i | 0 <= i < |w[1..]| ensures !IsSpace(w[1..][i]) {
          assert w[1..][i] == w[i + 1];
        }
      }
      SqueezeWord(w[1..], rest);
      calc {
        Squeeze(s);
        [w[0]] + Squeeze(w[1..] + rest);
        [w[0]] + (w[1..] + Squeeze(rest));
        { ConcatAssoc([w[0]], w[1..], Squeeze(rest)); assert [w[0]] + w[1..] == w; }
        w + Squeeze(rest);
      }
    } else {
      assert w + rest == rest && w + Squeeze(rest) == Squeeze(rest);
    }
  }

  predicate AllSpace(s: string)
  {
    forall i :: 0 <= i < |s| ==> IsSpace(s[i])
  }

  /** `seps[0] + fields[0] + seps[1] + ... + fields[n-1] + seps[n]`. */
  function Interleave(seps: seq<string>, fields: seq<string>): string
    requires |seps| == |fields| + 1
    decreases |fields|
  {
    if |fields| == 0 then seps[0] else seps[0] + fields[0] + Interleave(seps[1..], fields[1..])
  }

  /** `s` is the non-empty space-free `fields` with whitespace-only
      separators around them, and every separator between two fields is
      non-empty: the fields are the maximal runs of non-space characters. */
  predicate SplitsInto(s: string, seps: seq<string>, fields: seq<string>)
  {
    && |seps| == |fields| + 1
    && (forall k :: 0 <= k < |seps| ==> AllSpace(seps[k]))
    && (forall k :: 0 < k < |fields| ==> |seps[k]| > 0)
    && (forall k :: 0 <= k < |fields| ==> |fields[k]| > 0 && NoSpace(fields[k]))
    && Interleave(seps, fields) == s
  }

  /** A blank in front widens the leading separator. */
  lemma SplitsSpaceFront(c: char, s: string, seps: seq<string>, fields: seq<string>)
    requires IsSpace(c) && SplitsInto(s, seps, fields)
    ensures SplitsInto([c] + s, [[c] + seps[0]] + seps[1..], fields)
  {
    var wide := [[c] + seps[0]] + seps[1..];
    assert wide[1..] == seps[1..];
    forall k | 0 <= k < |wide| ensures AllSpace(wide[k]) {
      if k == 0 {
        forall i | 0 <= i < |wide[0]| ensures IsSpace(wide[0][i]) {
          if i > 0 { assert wide[0][i] == seps[0][i - 1]; }
        }
      } else {
        assert wide[k] == seps[k];
      }
    }
    forall k | 0 < k < |fields| ensures |wide[k]| > 0 {
      assert wide[k] == seps[k];
    }
    if |fields| > 0 {
      var tail := Interleave(seps[1..], fields[1..]);
      calc {
        Interleave(wide, fields);
        ([c] + seps[0]) + fields[0] + tail;
        { ConcatAssoc([c], seps[0], fields[0]); }
        ([c] + (seps[0] + fields[0])) + tail;
        { ConcatAssoc([c], seps[0] + fields[0], tail); }
        [c] + (seps[0] + fields[0] + tail);
      }
    }
  }

  /** A word in front of a split text that starts with a blank (or is
      empty) becomes a new first field. */
  lemma SplitsWordFront(w: string, t: string, seps: seq<string>, fields: seq<string>)
    requires |w| > 0 && NoSpace(w) && SplitsInto(t, seps, fields)
    requires |t| > 0 ==> IsSpace(t[0])
    ensures SplitsInto(w + t, [""] + seps, [w] + fields)
  {
    var seps' := [""] + seps;
    var fields' := [w] + fields;
    assert seps'[1..] == seps && fields'[1..] == fields;
    forall k | 0 <= k < |seps'| ensures AllSpace(seps'[k]) {
      if k > 0 { assert seps'[k] == seps[k - 1]; }
    }
    forall k | 0 < k < |fields'| ensures |seps'[k]| > 0 {
      assert seps'[k] == seps[k - 1];
    }
    forall k | 0 <= k < |fields'| ensures |fields'[k]| > 0 && NoSpace(fields'[k]) {
      if k > 0 { assert fields'[k] == fields[k - 1]; }
    }
    assert Interleave(seps', fields') == "" + w + t;
    assert "" + w + t == w + t;
  }

  lemma SplitsSpaceFrontExists(c: char, s: string, fields: seq<string>)
    requires IsSpace(c) && exists seps :: SplitsInto(s, seps, fields)
    ensures exists seps :: SplitsInto([c] + s, seps, fields)
  {
    var seps :| SplitsInto(s, seps, fields);
    SplitsSpaceFront(c, s, seps, fields);
  }

  lemma SplitsWordFrontExists(w: string, t: string, fields: seq<string>)
    requires |w| > 0 && NoSpace(w) && exists seps :: SplitsInto(t, seps, fields)
    requires |t| > 0 ==> IsSpace(t[0])
    ensures exists seps :: SplitsInto(w + t, seps, [w] + fields)
  {
    var seps :| SplitsInto(t, seps, fields);
    SplitsWordFront(w, t, seps, fields);
  }

  /** Python's `s.split()`: the maximal runs of non-space characters, in
      order; together they hold exactly the non-space characters of `s`. */
  function Fields(s: string): (r: seq<string>)
    ensures forall k :: 0 <= k < |r| ==> |r[k]| > 0 && NoSpace(r[k])
    ensures Glue(r) == Squeeze(s)
    ensures exists seps :: SplitsInto(s, seps, r)
    decreases |s|
  {
    if |s| == 0 then
      assert SplitsInto(s, [""], []);
      []
    else if IsSpace(s[0]) then
      var rest := Fields(s[1..]);
      SplitsSpaceFrontExists(s[0], s[1..], rest);
      assert [s[0]] + s[1..] == s;
      rest
    else
      var w := Word(s);
      var rest := Fields(s[|w|..]);
      TakeDrop(s, |w|);
      SqueezeWord(w, s[|w|..]);
      SplitsWordFrontExists(w, s[|w|..], rest);
      assert ([w] + rest)[1..] == rest;
      [w] + rest
  }

  lemma {:induction false} WordBeforeSpace(w: string, rest: string)
    requires NoSpace(w) && (|rest| > 0 ==> IsSpace(rest[0]))
    ensures Word(w + rest) == w
    decreases |w|
  {
    if |w| > 0 {
      assert (w + rest)[1..] == w[1..] + rest;
      WordBeforeSpace(w[1..], rest);
      assert [w[0]] + w[1..] == w;
    } else {
      assert w + rest == rest;
    }
  }

  /** Dropping the first blank of a non-empty leading separator. */
  lemma SplitsDropSpace(s: string, seps: seq<string>, fields: seq<string>)
    requires SplitsInto(s, seps, fields) && |seps[0]| > 0
    ensures |s| > 0 && IsSpace(s[0])
    ensures SplitsInto(s[1..], [seps[0][1..]] + seps[1..], fields)
  {
    var c := seps[0][0];
    var narrow := [seps[0][1..]] + seps[1..];
    assert narrow[1..] == seps[1..];
    forall k | 0 <= k < |narrow| ensures AllSpace(narrow[k]) {
      if k == 0 {
        forall i | 0 <= i < |narrow[0]| ensures IsSpace(narrow[0][i]) {
          assert narrow[0][i] == seps[0][i + 1];
        }
      } else {
        assert narrow[k] == seps[k];
      }
    }
    forall k | 0 < k < |fields| ensures |narrow[k]| > 0 {
      assert narrow[k] == seps[k];
    }
    var t := Interleave(narrow, fields);
    assert SplitsInto(t, narrow, fields);
    SplitsSpaceFront(c, t, narrow, fields);
    assert [[c] + narrow[0]] + narrow[1..] == seps by {
      assert [c] + seps[0][1..] == seps[0];
    }
    assert s == [c] + t;
  }

  /** Dropping an empty leading separator and the first field. */
  lemma SplitsDropWord(s: string, seps: seq<string>, fields: seq<string>)
    requires SplitsInto(s, seps, fields) && |seps[0]| == 0 && |fields| > 0
    ensures var t := Interleave(seps[1..], fields[1..]);
      && s == fields[0] + t
      && SplitsInto(t, seps[1..], fields[1..])
      && (|t| > 0 ==> IsSpace(t[0]))
  {
    var t := Interleave(seps[1..], fields[1..]);
    assert s == "" + fields[0] + t;
    assert "" + fields[0] + t == fields[0] + t;
    forall k | 0 <= k < |seps[1..]| ensures AllSpace(seps[1..][k]) {
      assert seps[1..][k] == seps[k + 1];
    }
    forall k | 0 < k < |fields[1..]| ensures |seps[1..][k]| > 0 {
      assert seps[1..][k] == seps[k + 1];
    }
    forall k | 0 <= k < |fields[1..]| ensures |fields[1..][k]| > 0 && NoSpace(fields[1..][k]) {
      assert fields[1..][k] == fields[k + 1];
    }
    if |t| > 0 {
      if |fields| == 1 {
        assert t == seps[1];
        assert AllSpace(seps[1]);
      } else {
        assert |seps[1]| > 0;
        assert t == seps[1..][0] + fields[1..][0] + Interleave(seps[1..][1..], fields[1..][1..]);
        assert t[0] == seps[1][0];
        assert AllSpace(seps[1]);
      }
    }
  }

  /** `split()` is the only way to cut a text into maximal runs: any
      fields that split `s` in the sense of `SplitsInto` are `Fields(s)`. */
  lemma {:induction false} FieldsUnique(s: string, seps: seq<string>, fields: seq<string>)
    requires SplitsInto(s, seps, fields)
    ensures fields == Fields(s)
    decreases |s|
  {
    if |seps[0]| > 0 {
      SplitsDropSpace(s, seps, fields);
      FieldsUnique(s[1..], [seps[0][1..]] + seps[1..], fields);
    } else if |fields| == 0 {
      assert s == seps[0] == "";
    } else {
      var t := Interleave(seps[1..], fields[1..]);
      SplitsDropWord(s, seps, fields);
      WordBeforeSpace(fields[0], t);
      assert s[0] == fields[0][0];
      assert s[|fields[0]|..] == t;
      FieldsUnique(t, seps[1..], fields[1..]);
      assert fields == [fields[0]] + fields[1..];
    }
  }

  /** A field followed by a blank is split off as the first field. */
  lemma FieldsCons(w: string, rest: string)
    requires |w| > 0 && NoSpace(w)
    ensures Fields(w + " " + rest) == [w] + Fields(rest)
  {
    var s := w + " " + rest;
    WordBeforeSpace(w, " " + rest);
    assert s == w + (" " + rest);
    assert s[|w|..] == " " + rest;
    assert (" " + rest)[1..] == rest;
  }
}

=== FILE: utils.dfy ===
/** The helpers of utils/__init__.py: leveled messages, the yes/no answer
    test, the cron timing check, and loading and saving the stash document. */
module Utils {
  import opened Base
  import opened Text

  // ---------------------------------------------------------------------
  // Leveled messages
  // ---------------------------------------------------------------------

  datatype Level = Debug | Info | Warning | Error

  /** The numeric table of get_logging_level. */
  function Severity(l: Level): int
  {
    match l
    case Debug => 10
    case Info => 20
    case Warning => 30
    case Error => 40
  }

  /** The key each level has in that table. */
  function LevelName(l: Level): string
  {
    match l
    case Debug => "DEBUG"
    case Info => "INFO"
    case Warning => "WARNING"
    case Error => "ERROR"
  }

  /** get_logging_level: the dictionary lookup, where `None` is the KeyError
      an unknown name raises. */
  function GetLoggingLevel(name: string): (r: Option<int>)
    ensures forall l: Level :: r == Some(Severity(l)) <==> LevelName(l) == name
    ensures r.Some? ==> r.value in {10, 20, 30, 40}
  {
    if name == "DEBUG" then Some(10)
    else if name == "INFO" then Some(20)
    else if name == "WARNING" then Some(30)
    else if name == "ERROR" then Some(40)
    else None
  }

  /** The levels are 10, 20, 30, 40 and strictly increasing. */
  lemma SeverityOrder()
    ensures GetLoggingLevel("DEBUG") == Some(10) && GetLoggingLevel("INFO") == Some(20)
    ensures GetLoggingLevel("WARNING") == Some(30) && GetLoggingLevel("ERROR") == Some(40)
    ensures Severity(Debug) < Severity(Info) < Severity(Warning) < Severity(Error)
  {
    assert LevelName(Debug) == "DEBUG";
    assert LevelName(Info) == "INFO";
    assert LevelName(Warning) == "WARNING";
    assert LevelName(Error) == "ERROR";
  }

  /** The gate shared by debug, info, warning and error: a message at level
      `at` is printed when the configured threshold is not above it. */
  predicate Emits(threshold: Level, at: Level)
    ensures threshold == Debug ==> Emits(threshold, at)
    ensures threshold == Info ==> (Emits(threshold, at) <==> at != Debug)
    ensures threshold == Warning ==> (Emits(threshold, at) <==> at == Warning || at == Error)
    ensures threshold == Error ==> (Emits(threshold, at) <==> at == Error)
  {
    Severity(at) >= Severity(threshold)
  }

  /** A message logged by one of the four helpers. */
  datatype Record<E> = Record(level: Level, event: E)

  /** What the terminal shows of a log under a threshold, in order. */
  function Shown<E>(threshold: Level, log: seq<Record<E>>): (r: seq<E>)
    ensures |r| <= |log|
  {
    if |log| == 0 then [] else Echo(threshold, log[0]) + Shown(threshold, log[1..])
  }

  /** What one record contributes to the output. */
  function Echo<E>(threshold: Level, record: Record<E>): seq<E>
  {
    if Emits(threshold, record.level) then [record.event] else []
  }

  /** Emission is monotone in the message level: whatever is printed at one
      level is printed at every higher level, and errors are always printed. */
  lemma EmitsMonotone(threshold: Level, a: Level, b: Level)
    requires Emits(threshold, a) && Severity(a) <= Severity(b)
    ensures Emits(threshold, b)
    ensures Emits(threshold, Error)
  {
  }

  /** The records of a log that reach the threshold, in order. */
  function Passed<E>(threshold: Level, log: seq<Record<E>>): (r: seq<Record<E>>)
    ensures |r| <= |log|
    ensures forall k :: 0 <= k < |r| ==> Emits(threshold, r[k].level)
  {
    if |log| == 0 then []
    else (if Emits(threshold, log[0].level) then [log[0]] else []) + Passed(threshold, log[1..])
  }

  /** Lowering the threshold never hides a message: what a log shows under
      a lower threshold is the events of the records that pass it, and what
      it shows under a higher one is what that threshold keeps of those same
      records, so a subsequence of the first. */
  lemma {:induction false} ShownGrowsAsThresholdFalls<E>(low: Level, high: Level, log: seq<Record<E>>)
    requires Severity(low) <= Severity(high)
    ensures |Shown(high, log)| <= |Shown(low, log)|
    ensures Shown(Debug, log) == seq(|log|, k requires 0 <= k < |log| => log[k].event)
    ensures Shown(low, log) == Shown(Debug, Passed(low, log))
    ensures Shown(high, log) == Shown(high, Passed(low, log))
  {
    if |log| > 0 {
      ShownGrowsAsThresholdFalls(low, high, log[1..]);
    }
    ShownThroughPassed(low, high, log);
  }

  lemma {:induction false} ShownThroughPassed<E>(low: Level, high: Level, log: seq<Record<E>>)
    requires Severity(low) <= Severity(high)
    ensures Shown(low, log) == Shown(Debug, Passed(low, log))
    ensures Shown(high, log) == Shown(high, Passed(low, log))
  {
    if |log| > 0 {
      ShownThroughPassed(low, high, log[1..]);
      var rest := Passed(low, log[1..]);
      if Emits(low, log[0].level) {
        var front := [log[0]];
        assert Passed(low, log) == front + rest;
        ShownAppend(Debug, front, rest);
        ShownAppend(high, front, rest);
        assert front[1..] == [];
      } else {
        assert Passed(low, log) == rest by {
          assert [] + rest == rest;
        }
      }
    }
  }

  /** What a log shows is what its two halves show, one after the other. */
  lemma {:induction false} ShownAppend<E>(threshold: Level, a: seq<Record<E>>, b: seq<Record<E>>)
    ensures Shown(threshold, a + b) == Shown(threshold, a) + Shown(threshold, b)
  {
    if |a| == 0 {
      assert a + b == b;
    } else {
      var ab := a + b;
      assert ab[0] == a[0] && ab[1..] == a[1..] + b;
      ShownAppend(threshold, a[1..], b);
      calc {
        Shown(threshold, ab);
        Echo(threshold, a[0]) + Shown(threshold, a[1..] + b);
        Echo(threshold, a[0]) + (Shown(threshold, a[1..]) + Shown(threshold, b));
        { ConcatAssoc(Echo(threshold, a[0]), Shown(threshold, a[1..]), Shown(threshold, b)); }
        (Echo(threshold, a[0]) + Shown(threshold, a[1..])) + Shown(threshold, b);
        Shown(threshold, a) + Shown(threshold, b);
      }
    }
  }

  /** A log none of whose messages reaches the threshold shows nothing. */
  lemma {:induction false} ShownNothing<E>(threshold: Level, log: seq<Record<E>>)
    requires forall k :: 0 <= k < |log| ==> !Emits(threshold, log[k].level)
    ensures Shown(threshold, log) == []
  {
    if |log| > 0 {
      ShownNothing(threshold, log[1..]);
    }
  }

  // ---------------------------------------------------------------------
  // ask
  // ---------------------------------------------------------------------

  const AcceptedAnswers: set<string> := {"y", "yes", "yeah", "yep", "true", "t", "1"}

  /** ask, given the line the operator typed: it accepts when the lowered
      answer is one of the accepted words, compared exactly (no trimming). */
  predicate Ask(answer: string)
    ensures Ask(answer) ==> 0 < |answer| <= 4
    ensures Ask(answer) ==> forall i :: 0 <= i < |answer| ==> answer[i] != ' '
  {
    Lower(answer) in AcceptedAnswers
  }

  /** The answer test ignores letter case. */
  lemma AskIgnoresCase(answer: string)
    ensures Ask(answer) <==> Ask(Lower(answer))
  {
    LowerIdempotent(answer);
  }

  lemma AskExamples()
    ensures Ask("y") && Ask("YES") && Ask("Yeah") && Ask("yep") && Ask("True") && Ask("t") && Ask("1")
    ensures !Ask("") && !Ask("no") && !Ask("n") && !Ask(" y") && !Ask("yes ") && !Ask("0")
  {
    assert Lower("YES") == "yes";
    assert Lower("Yeah") == "yeah";
    assert Lower("True") == "true";
    assert Lower("y") == "y";
    assert Lower("yep") == "yep";
    assert Lower("t") == "t";
    assert Lower("1") == "1";
    assert Lower("no") == "no" && Lower("n") == "n" && Lower("0") == "0";
    assert Lower(" y") == " y" && Lower("yes ") == "yes ";
  }

  // ---------------------------------------------------------------------
  // verify_cronstring
  // ---------------------------------------------------------------------

  predicate IsDigit(c: char)
  {
    '0' <= c <= '9'
  }

  /** `[0-9]{1,2}` matched against a whole string. */
  predicate OneOrTwoDigits(s: string)
  {
    1 <= |s| <= 2 && forall i :: 0 <= i < |s| ==> IsDigit(s[i])
  }

  // One field against the pattern: a lone star, one or two digits, or a
  // star, a slash and one or two digits, each matched as the whole field.
  predicate ValidCronField(f: string)
  {
    f == "*" || OneOrTwoDigits(f) || (|f| >= 2 && f[..2] == "*/" && OneOrTwoDigits(f[2..]))
  }

  /** Every whitespace-separated field is valid. Neither the number of
      fields nor the numeric range is checked. */
  predicate CronstringValid(cronstring: string)
  {
    forall k :: 0 <= k < |Fields(cronstring)| ==> ValidCronField(Fields(cronstring)[k])
  }

  /** verify_cronstring: scan the fields and stop at the first bad one. The
      `hours` and `minutes` parameters are accepted and ignored. */
  method VerifyCronstring(cronstring: string, hours: int, minutes: int) returns (ok: bool)
    ensures ok <==> CronstringValid(cronstring)
  {
    var fields := Fields(cronstring);
    var i := 0;
    while i < |fields|
      invariant 0 <= i <= |fields|
      invariant forall k :: 0 <= k < i ==> ValidCronField(fields[k])
    {
      if !ValidCronField(fields[i]) {
        return false;
      }
      i := i + 1;
    }
    return true;
  }

  /** Words joined by single spaces. */
  function Spaced(words: seq<string>): string
  {
    if |words| == 0 then ""
    else if |words| == 1 then words[0]
    else words[0] + " " + Spaced(words[1..])
  }

  /** Splitting words joined by single spaces gives the words back. */
  lemma {:induction false} SpacedFields(words: seq<string>)
    requires forall k :: 0 <= k < |words| ==> |words[k]| > 0 && NoSpace(words[k])
    ensures Fields(Spaced(words)) == words
  {
    if |words| == 1 {
      OneField(words[0]);
    } else if |words| > 1 {
      var rest := words[1..];
      forall k | 0 <= k < |rest| ensures |rest[k]| > 0 && NoSpace(rest[k]) {
        assert rest[k] == words[k + 1];
      }
      SpacedFields(rest);
      assert Spaced(words) == words[0] + " " + Spaced(rest);
      FieldsCons(words[0], Spaced(rest));
      assert words == [words[0]] + rest;
    }
  }

  /** A cron string built from valid fields is accepted. */
  lemma SpacedValid(words: seq<string>)
    requires forall k :: 0 <= k < |words| ==> ValidCronField(words[k]) && NoSpace(words[k])
    ensures CronstringValid(Spaced(words))
  {
    SpacedFields(words);
  }

  // "*/5 * * * *" is accepted.
  lemma CronstringAcceptsStep()
    ensures CronstringValid("*/5 * * * *")
  {
    assert ValidCronField("*/5") by {
      assert "*/5"[..2] == "*/" && "*/5"[2..] == "5";
    }
    StarsValid("*/5");
    StarsText("*/5", "*/5 * * * *");
  }

  /** The text of a first field followed by four "*" fields. */
  lemma StarsText(w: string, text: string)
    requires |text| == |w| + 8 && text[..|w|] == w && text[|w|..] == " * * * *"
    ensures w + " * * * *" == text
  {
  }

  /** A first field followed by four "*" fields. */
  lemma SpacedStars(w: string)
    ensures Spaced([w, "*", "*", "*", "*"]) == w + " * * * *"
  {
    var words := [w, "*", "*", "*", "*"];
    assert words[1..] == ["*", "*", "*", "*"];
    assert Spaced(["*", "*", "*", "*"]) == "* * * *" by {
      assert Spaced(["*"]) == "*";
      assert ["*", "*"][1..] == ["*"];
      assert ["*", "*", "*"][1..] == ["*", "*"];
      assert ["*", "*", "*", "*"][1..] == ["*", "*", "*"];
    }
  }

  /** A bad first field rejects the string whatever follows it. */
  lemma StarsInvalid(w: string)
    requires |w| > 0 && NoSpace(w) && !ValidCronField(w)
    ensures !CronstringValid(w + " * * * *")
  {
    var words := [w, "*", "*", "*", "*"];
    assert NoSpace("*");
    forall k | 0 <= k < |words| ensures |words[k]| > 0 && NoSpace(words[k]) {
      if k > 0 { assert words[k] == "*"; }
    }
    SpacedStars(w);
    SpacedInvalid(words, 0);
  }

  /** A good first field followed by four "*" fields is accepted. */
  lemma StarsValid(w: string)
    requires |w| > 0 && NoSpace(w) && ValidCronField(w)
    ensures CronstringValid(w + " * * * *")
  {
    var words := [w, "*", "*", "*", "*"];
    assert ValidCronField("*") && NoSpace("*");
    forall k | 0 <= k < |words| ensures ValidCronField(words[k]) && NoSpace(words[k]) {
      if k > 0 { assert words[k] == "*"; }
    }
    SpacedStars(w);
    SpacedValid(words);
  }

  /** One bad field among well-formed words makes the whole string fail. */
  lemma SpacedInvalid(words: seq<string>, k: nat)
    requires forall j :: 0 <= j < |words| ==> |words[j]| > 0 && NoSpace(words[j])
    requires k < |words| && !ValidCronField(words[k])
    ensures !CronstringValid(Spaced(words))
  {
    SpacedFields(words);
  }

  /** "99x * * * *" is rejected on its first field. */
  lemma CronstringRejectsLetter()
    ensures !CronstringValid("99x * * * *")
  {
    assert !ValidCronField("99x") by {
      assert "99x"[..2] != "*/" by { assert "99x"[0] != '*'; }
    }
    StarsInvalid("99x");
    StarsText("99x", "99x * * * *");
  }

  // "*/100 * * * *" is rejected: at most two digits after the slash.
  lemma CronstringRejectsLongStep()
    ensures !CronstringValid("*/100 * * * *")
  {
    assert !ValidCronField("*/100") by {
      assert "*/100"[2..] == "100";
    }
    StarsInvalid("*/100");
    StarsText("*/100", "*/100 * * * *");
  }

  lemma OneField(w: string)
    requires |w| > 0 && NoSpace(w)
    ensures Fields(w) == [w]
  {
    assert w + "" == w;
    assert Word(w) == w by {
      if |w| > 0 { WordAll(w); }
    }
    assert w[|w|..] == "";
  }

  lemma {:induction false} WordAll(w: string)
    requires NoSpace(w)
    ensures Word(w) == w
    decreases |w|
  {
    if |w| > 0 {
      WordAll(w[1..]);
      assert [w[0]] + w[1..] == w;
    }
  }

  /** `verify_cronstring` counts no fields and bounds no numbers: the empty string
      and a lone blank (zero fields) pass, and so does "99 99". */
  lemma CronstringIgnoresShape()
    ensures CronstringValid("") && CronstringValid(" ")
    ensures CronstringValid("99 99")
  {
    BlankCronstrings();
    UnboundedNumbers();
  }

  lemma BlankCronstrings()
    ensures CronstringValid("") && CronstringValid(" ")
  {
    assert Fields(" ") == Fields("") == [];
  }

  lemma UnboundedNumbers()
    ensures CronstringValid("99 99")
  {
    var words := ["99", "99"];
    assert OneOrTwoDigits("99");
    SpacedValid(words);
    assert Spaced(words) == "99 99";
  }

  // ---------------------------------------------------------------------
  // load_stash / save_stash
  // ---------------------------------------------------------------------

  /** The stash document: absent, or holding a manifest. */
  type Store = Option<Manifest>

  datatype Loaded = Loaded(store: Store, manifest: Manifest)

  /** load_stash: a missing document is first written as `{}`; then the
      document is read back. Returns the store afterwards and what was read. */
  function LoadStash(store: Store): (r: Loaded)
    ensures r.store == Some(r.manifest)
    ensures store.Some? ==> r.store == store && r.manifest == store.value
    ensures store.None? ==> r.manifest == map[]
  {
    match store
    case None => Loaded(Some(map[]), map[])
    case Some(m) => Loaded(store, m)
  }

  /** save_stash: overwrite the document with the whole manifest. */
  function SaveStash(manifest: Manifest): (r: Store)
    ensures LoadStash(r) == Loaded(r, manifest)
  {
    Some(manifest)
  }

  /** Loading after saving returns what was saved, and loading twice is
      loading once. */
  lemma LoadAfterSave(manifest: Manifest, store: Store)
    ensures LoadStash(SaveStash(manifest)).manifest == manifest
    ensures LoadStash(LoadStash(store).store) == LoadStash(store)
  {
  }
}
